=== FILE: README.md ===
# SD card over SPI and a FAT32 root-directory listing

This project models the firmware in `main.c`: a microcontroller that starts an
SD card in SPI mode, reads single 512-byte blocks from it, decodes the FAT32
geometry of the card's first partition, and lists the records of the first
sector of the root directory.

The model is layered like the program:

- `Bytes` (bytes.dfy) holds the C integer widths as subset types of `int`.
  - It covers `uint32_t` wrap-around (`Wrap32`), single-bit tests, and
    little- and big-endian field decoding.
  - Its lemmas tie the arithmetic formulations of the single-bit tests
    and of `0x40 | cmd` to the `&`/`|` masks the source writes.
- `Spi` (spi.dfy) models `spi_transfer` and `spi_send_dummy`.
  - The card's MISO output is a stream, `nat -> byte`.
  - The controller's state is a `Bus`. It holds how many exchanges have
    happened, the wire trace of everything sent, and a log of the SD
    commands issued with their R1 responses.
  - The wire trace covers every MOSI byte and every chip-select call, including a
    repeated select that changes nothing.
- `Sd` (sd.dfy) models `sd_send_cmd`, `sd_init` and `sd_read_sector` as
  functions over the stream and the bus.
  - The 8-bit and 16-bit counting loops are also written as methods with
    loop invariants. Each is proved equal to the functional model.
  - `Crc7` is the checksum of section 4.5 of the SD Physical Layer
    Simplified Specification. It serves as a reference for the five
    checksum bytes the power-up commands are sent with. CMD17 goes out
    with 0xFF, which the card does not check in SPI mode.
  - `Consistent` is an invariant tying the command log to the wire. The
    start bytes of the logged commands are exactly the bytes sent right
    after a chip select.
- `Fat32` (fat32.dfy) models the decoding of the partition start
  (`main.c:254`) and `parse_fat32_info`. It also models the first-root-sector
  formula of `main` with the `uint32_t` wrap-around of every step.
- `Directory` (directory.dfy) models `print_filename` as a name decoder and
  `print_dir_entry` as a filter plus decoder. It also models the sixteen-record
  scan of one sector.
  - `Options` (options.dfy) holds the generic "values of the present
    options, in order" used to state the scan.
- `Listing` (listing.dfy) holds the scan loop of `main` as written.

## Model

| member | source | states |
|---|---|---|
| Spi.TransfersAreExchange | main.c:85-89 | Calling `spi_transfer` once per byte of a block returns, as the i-th reply, the card's byte at the i-th position from the current one. It puts the block's bytes on the wire in order. |
| Spi.SendDummyIsTransfers | main.c:91-93 | `spi_send_dummy(n)` is `n` exchanges of 0xFF whose replies are dropped. |
| Bytes.LE32RoundTrip | main.c:188-189 | Decoding the 4-byte little-endian encoding of a `uint32_t` gives the value back. |
| Bytes.LE32Encodes | main.c:254 | Four bytes at any offset are exactly the little-endian encoding of the value decoded from them. |
| Bytes.LE32Injective | main.c:224 | Different `uint32_t` values have different little-endian encodings, so the decoded size determines bytes 28..31. |
| Bytes.SetBit6IsOr | main.c:98 | The start byte computed arithmetically equals `0x40 \| cmd` on the bit pattern. |
| Bytes.Bit7IsMask | main.c:109 | The bit-7 test equals `(res & 0x80) != 0`. |
| Bytes.Bit3IsMask | main.c:217 | The bit-3 test equals `(attr & 0x08) != 0`. |
| Sd.FrameRoundTrip | main.c:97-103 | For any command index below 64, the card parses the 6-byte frame back to the same index, argument and checksum. The first byte has its start bits `01`. |
| Sd.FrameFields | main.c:98-103 | The frame is `0x40 \| cmd`, then the argument most significant byte first, then the checksum byte. |
| Sd.GoIdleChecksummed | main.c:119 | The CMD0 frame's last byte 0x95 is the CRC7 of its first five bytes followed by the end bit. |
| Sd.SendIfCondChecksummed | main.c:122 | The CMD8 frame's last byte 0x87 is the CRC7 of its first five bytes followed by the end bit. |
| Sd.AppChecksummed | main.c:128 | The CMD55 frame's last byte 0x65 is the CRC7 of its first five bytes followed by the end bit. |
| Sd.AppInitChecksummed | main.c:129 | The ACMD41 frame's last byte 0x77 is the CRC7 of its first five bytes followed by the end bit. |
| Sd.ReadOcrChecksummed | main.c:134 | The CMD58 frame's last byte 0xFD is the CRC7 of its first five bytes followed by the end bit. |
| Sd.PollR1Polls | main.c:105-111 | The response wait sends only 0xFF and reads between 1 and 8 bytes. It stops at the first byte with bit 7 clear. When no such byte appears, the result is the 8th byte read. |
| Sd.PollR1Loop | main.c:106-111 | The 8-bit counting loop with its early exit computes the same reply and bus as the response-wait model. |
| Sd.SendCmd | main.c:96-112 | A command appends exactly one log record: its index, its argument, its checksum byte and the R1 byte returned. |
| Sd.SendCmdEnds | main.c:96-111 | After a command, the wire ends with its chip select, its six frame bytes and an R1 poll that stopped at the reply returned. |
| Sd.SendCmdWire | main.c:96-111 | On the wire, a command is a chip select, the six frame bytes, and 1 to 8 filler bytes. The R1 returned is the last byte received. |
| Sd.SendCmdFramesOneCommand | main.c:96-103 | A command puts exactly one new command start byte on the wire, `0x40 \| cmd`, and leaves no select pending. |
| Sd.SendCmdKeepsConsistent | main.c:96-112 | After any command, the log and the wire still agree. |
| Sd.AppInitLoopOutcome | main.c:126-131 | The CMD55/ACMD41 loop succeeds exactly when its last ACMD41 was answered 0x00. When it fails, it has used all 65535 rounds. |
| Sd.AppInitLoopReady | main.c:127-131 | The loop reports success exactly when the last ACMD41 it logged was answered 0x00. |
| Sd.AppInitLoopSpends | main.c:126-131 | A failed loop has logged all of its rounds, two commands each. |
| Sd.AppInitLoopLast | main.c:127-130 | The bus the loop returns is the one its last ACMD41 left: the loop sends nothing after that command. |
| Sd.AppInitLoopEnds | main.c:127-130 | The loop returns right after its last ACMD41: the wire ends with that command's frame and the R1 poll that produced its logged reply. |
| Sd.AppInitLoopStops | main.c:126-131 | A loop that runs out of rounds ends on the wire with a refused ACMD41 and nothing after its R1 poll. |
| Sd.AppInitLoopRounds | main.c:126-130 | The loop logs whole rounds of CMD55 (argument 0, checksum 0x65) and ACMD41 (argument 0x40000000, checksum 0x77). Every ACMD41 but the last was refused, and the CMD55 response is ignored. |
| Sd.AppInitSteps | main.c:126-131 | The `do … while (--timeout)` loop with its 16-bit counter computes the same result and bus as the round-by-round model. |
| Sd.Init | main.c:114-140 | `sd_init` returns 0 or 1. |
| Sd.InitTranscript | main.c:114-140 | `sd_init` returns 1 exactly when four things hold: CMD0 (checksum 0x95) and CMD8 (argument 0x1AA, checksum 0x87) were answered 0x01, some ACMD41 within 65535 rounds was answered 0x00, and CMD58 (checksum 0xFD) was answered 0x00. It returns 0 exactly when the commands stop at the first failing step, with no command after it. |
| Sd.InitOutcomeExclusive | main.c:114-140 | No command transcript counts as both a successful and a failed power-up. |
| Sd.InitAfterProbe | main.c:119-122 | Once CMD0 and CMD8 have both answered 0x01, success and failure are decided by the activation alone. |
| Sd.InitAfterHead | main.c:119-122 | In a log that continues past an accepted CMD0 and CMD8, the power-up succeeded (failed) exactly when the commands after them form a successful (failed) activation. |
| Sd.ActivateTranscript | main.c:123-139 | After CMD8, the activation returns 1 exactly for an accepted ACMD41/CMD58 transcript and 0 exactly for a rejected one. |
| Sd.InitWire | main.c:114-139 | On the wire, `sd_init` starts with chip select high, exactly ten filler bytes, a chip select and the CMD0 frame, and only appends after that. It returns 1 exactly when it leaves the card deselected. On success, the activation started from the bus right after a CMD8 answered 0x01, and exactly four filler bytes and a chip select follow that CMD8. The wire ends with CMD58 answered 0x00, exactly four filler bytes, chip select high and one filler byte. When it returns 0, the wire ends with the R1 poll of the refused CMD0, CMD8, last ACMD41 or CMD58, and nothing is sent after it. |
| Sd.ActivateWire | main.c:123-139 | After CMD8, exactly four filler bytes and then a chip select go out. The activation returns 1 exactly when it leaves the card deselected. On success the wire ends with CMD58 answered 0x00, exactly four filler bytes, chip select high and one filler byte. On failure it ends with the R1 poll of the last refused ACMD41 or of the refused CMD58, and nothing after it. |
| Sd.ActivateLoopWire | main.c:123-130 | The four echo fillers and the chip select that starts the loop's first CMD55 precede everything the loop sends, and the loop leaves the card selected. |
| Sd.InitKeepsConsistent | main.c:114-140 | After `sd_init`, the log and the wire still agree. |
| Sd.PollTokenPolls | main.c:150-155 | The token wait sends only 0xFF and reads between 1 and 65535 bytes. It stops at the first 0xFE and reports whether the last byte read was the token. |
| Sd.PollTokenFinds | main.c:150-160 | The token is found exactly when one of the next 65535 bytes is 0xFE. |
| Sd.WaitToken | main.c:150-156 | The `do … while (--t)` loop with its 16-bit counter computes the same result and bus as the token-wait model. |
| Sd.ReadSector | main.c:142-169 | `sd_read_sector` returns 0 or 1. On 0 the caller's buffer is unchanged. |
| Sd.ReadSectorOutcome | main.c:142-162 | A read logs exactly one CMD17 with the requested sector as its argument. It returns 1 exactly when CMD17 was answered 0x00 and a 0xFE token came within 65535 bytes. The buffer then holds the 512 bytes after the first token. |
| Sd.ReadDataOutcome | main.c:149-162 | After CMD17 is accepted, the read issues no further command. It succeeds exactly when a token comes within 65535 bytes, and then the buffer holds the 512 bytes after the first token. |
| Sd.BlockAfterToken | main.c:150-162 | A token wait that stopped at its first 0xFE, followed by the 512 bytes after it, is a delivered block. |
| Sd.ReadDataExchanges | main.c:149-168 | On success, the polls up to the token are followed by exactly 512 data bytes, 2 ignored checksum bytes, chip select high and one filler byte. On a timeout, all 65535 polls are followed by the same release. |
| Sd.ReadSectorWire | main.c:142-169 | Every read, successful or not, only appends to the wire and ends with chip select high followed by one filler byte. When CMD17 is refused, that release comes right after the R1 poll of CMD17, with nothing clocked in between. |
| Sd.ReadSectorKeepsConsistent | main.c:142-169 | After any read, the log and the wire still agree. |
| Sd.ReceiveLoop | main.c:162 | The 512-iteration copy loop receives exactly the next 512 stream bytes, in order. |
| Fat32.PartitionStart | main.c:254 | The partition start is the `uint32_t` whose little-endian encoding is bytes 454..457 of sector 0. |
| Fat32.PartitionStartReadsOnlyEntry | main.c:254 | The partition start depends on bytes 454..457 alone. The 0x55AA signature is not consulted. |
| Fat32.ParseFat32Info | main.c:183-193 | `parse_fat32_info` always returns 1. Each field's little-endian encoding is its bytes at offsets 11 (2 bytes), 13 (1), 14 (2), 16 (1), 36 (4) and 44 (4). |
| Fat32.ParseGeometry | main.c:190-191 | The FAT starts at the reserved sector count. The data region starts at `(reserved + num_fats * fat_size) mod 2^32`. |
| Fat32.DataStartExact | main.c:191 | Without overflow, the data start is the exact sector count of the reserved region and the FATs. |
| Fat32.ParseReadsOnlyFields | main.c:183-193 | Two sectors that agree on the fourteen field bytes (offsets 11-16, 36-39 and 44-47) parse to the same geometry. Nothing else is checked, including the sector size and the signature. |
| Fat32.FirstRootSectorFormula | main.c:271 | The `uint32_t` steps of the root-sector formula amount to a single reduction mod 2^32 of `data_start + spc * (root_cluster - 2)`. For a root cluster of at least 2 without overflow, the result is that exact sector. |
| Fat32.RootSectorOfVolume | main.c:271 | For parsed geometry, the root directory starts `reserved + num_fats * fat_size + spc * (root_cluster - 2)` sectors into the volume, mod 2^32. |
| Fat32.RootClusterBelowTwoWraps | main.c:271 | For any cluster size, a root cluster of 0 or 1 makes `root_cluster - 2` wrap to 2^32 - 2 + root_cluster, and the first root sector is the data start plus that many clusters, modulo 2^32. |
| Fat32.ExampleParses | main.c:183-193 | A boot sector with 512-byte sectors, 4 sectors per cluster, 32 reserved sectors, 2 FATs of 970 sectors and root cluster 2 parses to FAT start 32 and data start 1972. |
| Fat32.ExampleRootSector | main.c:271 | For that geometry, the root directory starts at volume sector 1972. |
| Fat32.VolumeToCard | main.c:257-274 | The card sector of volume sector `v` in a partition at `p` is `p + v` mod 2^32, and subtracting `p` gives `v` back. |
| Fat32.VolumeToCardInjective | main.c:257-274 | Volume sector 0, the boot record, is at the partition start. Distinct volume sectors map to distinct card sectors. |
| Fat32.RootDirAsWrittenIgnoresPartition | main.c:257-274 | As written, the card sector read for the root directory does not depend on the partition start. It is correct exactly when the partition starts at sector 0. |
| Fat32.ExampleRootDirOutsidePartition | main.c:257-274 | For the example volume at card sector 2048, the program reads card sector 1972 where the root directory is at card sector 4020. |
| Fat32.RootDirCardSector | main.c:257-274 | The root directory's card sector lies the first root sector past the partition start, mod 2^32. |
| Directory.DecodeName | main.c:196-211 | The printed name is at most 12 bytes, so together with its terminator it fits the 13-byte buffer. |
| Directory.DecodeNameParts | main.c:200-210 | The name has no spaces. It starts with the base: a prefix of bytes 0..7 that ends at a space or after all eight. When byte 8 is a space it is just the base. Otherwise the base is followed by a dot and the extension: a prefix of bytes 8..10 that ends at a space or after all three. |
| Directory.TakeToSpaceStops | main.c:200-203 | Copying until a space yields a space-free prefix that stops at a space or at the end of the field. |
| Directory.TakeToSpaceUnique | main.c:200-203 | Any space-free prefix that stops at a space or at the field's end is that copy. |
| Directory.DecodePadded | main.c:196-211 | A space-padded 8.3 field decodes to `BASE.EXT`, or to `BASE` when the extension is empty. |
| Directory.CopyToSpace | main.c:200-209 | The copy loop appends the field up to its first space to the buffer and advances the write index by its length. |
| Directory.FormatName | main.c:196-211 | `print_filename`'s two loops and the dot produce exactly the decoded name, in a 13-byte buffer. |
| Directory.DecodeEntry | main.c:215-224 | A record produces an entry exactly when byte 0 is neither 0x00 nor 0xE5 and `entry[11] & 0x08` is 0. The entry then carries the decoded name, attribute byte 11, and the size whose little-endian encoding is bytes 28..31. |
| Directory.SizeArgAsWritten | main.c:224-226 | The value `itoa` receives for a size: the 16-bit two's-complement value congruent to the `uint32_t` size modulo 2^16. |
| Directory.SizeArgAsWrittenExact | main.c:224-226 | `itoa` receives the size unchanged exactly when the size is below 32768. |
| Directory.SizeArgAsWrittenExample | main.c:224-226 | Sizes 40000 and 70000 reach `itoa` as -25536 and 4464. |
| Directory.AttributeFilter | main.c:217 | Long-name (0x0F) and volume-label (0x08) records are never printed. Directories (0x10), archive files (0x20) and plain files (0) are printed whenever byte 0 is live. |
| Directory.EntryFields | main.c:219-224 | The entry handed to the printing code carries the decoded name and attribute byte 11. Its size is the `uint32_t` whose little-endian encoding is bytes 28..31. |
| Directory.ExampleEntry | main.c:196-226 | The record `FILE1   TXT` with attribute 0x20 and size bytes encoding 1234 is printed as `FILE1.TXT`, 0x20, 1234. |
| Directory.ScanLists | main.c:280-282 | The listing has one entry per printed record, in increasing record order. Each record number in 0..15 is listed exactly when that record passes the filter. The i-th entry is the decoding of the i-th listed record. |
| Directory.ScanMembership | main.c:280-282 | An entry is listed exactly when some printed record of the sector decodes to it. |
| Directory.EndFrom | main.c:280-282 | The first 0x00 record from a given record on, or 16 when there is none. |
| Directory.ScanAgreesWhenEndMarked | main.c:280-282 | On a sector where every record after a 0x00 record is also 0x00, the scan lists the same entries as a scan that stops at the first 0x00 record. |
| Directory.ScanPassesFreeRecord | main.c:280-282 | A 0x00 record does not end the scan: a printed record after it is still listed. |
| Directory.FilledScansEmpty | main.c:280-282 | A sector whose sixteen records all start with 0x00, or all start with 0xE5, lists nothing, whatever their other bytes hold. |
| Listing.ListSector | main.c:280-282 | The loop over offsets 0, 32, …, 480 lists exactly the scan's entries, in record order. |

## Left out

- USART output (`usart0_init`, `usart0_putc`, `usart0_puts`, `usart0_print_hex`) and the conversion to decimal text are console presentation. The model yields the values passed to the printing code (decoded name, attribute byte, size), not the text.
- Directory.DecodeName: keeps the name bytes up to the first space. `usart0_puts` stops at the first 0x00 byte, so a name byte 0x00 after the first one cuts the printed text short; the model does not follow the text that far.
- Directory.EntryOf: keeps the full `uint32_t` size. avr-libc's `itoa` takes a 16-bit `int`, so the program prints a different number for sizes of 32768 and above (see Findings).
- `spi_init` and the register-level body of `spi_transfer` are left out. This covers the peripheral configuration and the busy-wait on the interrupt flag. An exchange is modelled as "send one byte, take the next byte of the card's stream".
- Timing is left out. This covers the clock rate, the baud rate and how long each busy-wait lasts. The polling budgets are counted in exchanges.
- The wiring of `main` between its reads is left out. This covers the order of `sd_init` and the three reads, the error messages, and the `while (1)` halts. The decode steps it performs (lines 254, 262, 271, 280-282) are modelled one by one.
- The card's own behaviour is not modelled. The MISO stream is an arbitrary parameter, so every property holds for any card reply.
- The 4-byte CMD8 echo and the 4-byte OCR are read and dropped. The model likewise ignores them. Whether the card uses byte or block addressing is therefore not modelled, and the sector number goes to CMD17 unchanged.
- Only the first sector of the root directory's first cluster is read. Following the cluster chain is not part of this program.

Where the program and a stricter reading of the FAT32 layout differ, the model follows the program:

- The partition-table signature 0x55AA is never checked.
- `bytes_per_sector` is never validated.
- A root cluster below 2 is not rejected.
- Directories are listed like files.
- The scan does not stop at a 0x00 record. `Directory.ScanAgreesWhenEndMarked` shows this makes no difference on sectors that follow the end-of-directory rule, and `Directory.ScanPassesFreeRecord` shows where it does.

## Findings

| source | as written | input that shows it | evidently intended | confidence | as-written member | corrected member |
|---|---|---|---|---|---|---|
| main.c:257-274 | The boot record is read at the partition start `part_start`, but the root directory is then read at `first_root_sector`, a sector number counted from the start of the volume, without adding `part_start`. | Partition at card sector 2048 with 512-byte sectors, 4 sectors per cluster, 32 reserved sectors, 2 FATs of 970 sectors and root cluster 2. The program reads card sector 1972, which is before the partition, but the root directory is at card sector 4020. | Read card sector `part_start + first_root_sector` (mod 2^32). | high, not executed | Fat32.RootDirAsWrittenIgnoresPartition | Fat32.RootDirCardSector |
| main.c:224-226 | The 32-bit file size is passed to avr-libc's `itoa`, whose value parameter is a 16-bit `int`. Only the low 16 bits survive, read as signed. | A file of 40000 bytes (size bytes 0x40 0x9C 0x00 0x00) is listed as `Size: -25536`. | Print the whole unsigned 32-bit size, for example with `ultoa`, so the listed size is the `uint32_t` decoded from bytes 28..31. | high, not executed | Directory.SizeArgAsWrittenExample | Directory.EntryFields |

=== FILE: bytes.dfy ===
/** Byte-level vocabulary shared by the SD-card and FAT32 models: unsigned
    8- and 32-bit values, the C bit operations used on bytes, the
    little-endian field decoders, and the 512-byte sector. */
module Bytes {

  /** An unsigned 8-bit value (`uint8_t`). */
  type byte = x: int | 0 <= x < 0x100

  /** An unsigned 16-bit value (`uint16_t`). */
  type u16 = x: int | 0 <= x < 0x1_0000

  const TWO_32: int := 0x1_0000_0000

  /** An unsigned 32-bit value (`uint32_t`). */
  type u32 = x: int | 0 <= x < TWO_32

  /** Size of one SD block and of one FAT32 sector. */
  const SECTOR_SIZE: nat := 512

  /** The single 512-byte scratch buffer the driver reads into. */
  type Sector = s: seq<byte> | |s| == SECTOR_SIZE witness seq(512, _ => 0)

  /** Reduction into `uint32_t`: C unsigned arithmetic wraps modulo 2^32. */
  function Wrap32(x: int): (r: u32)
  {
    x % TWO_32
  }

  /** C `(x & 0x80) != 0`: bit 7 of the byte is set. */
  predicate Bit7(x: byte)
  {
    x >= 0x80
  }

  /** C `(x & 0x08) != 0`: bit 3 of the byte is set. */
  predicate Bit3(x: byte)
  {
    x / 0x08 % 2 == 1
  }

  /** C `0x40 | x`: the byte with bit 6 set. */
  function SetBit6(x: byte): (r: byte)
  {
    if x / 0x40 % 2 == 1 then x else x + 0x40
  }

  /** C `x & 0x3F`: the low six bits of the byte. */
  function Low6(x: byte): (r: byte)
  {
    x % 0x40
  }

  /** `Bit7` is the C mask test `(x & 0x80) != 0`. */
  lemma Bit7IsMask(b: bv8)
    ensures Bit7(b as int) <==> b & 0x80 != 0
  {
  }

  /** `Bit3` is the C mask test `(x & 0x08) != 0`. */
  lemma Bit3IsMask(b: bv8)
    ensures Bit3(b as int) <==> b & 0x08 != 0
  {
  }

  /** `SetBit6` is the C `0x40 | x`. */
  lemma SetBit6IsOr(b: bv8)
    ensures SetBit6(b as int) == (b | 0x40) as int
  {
  }

  /** Setting bit 6 of a value below 0x40 adds 0x40, and the low six bits
      give the value back. */
  lemma SetBit6Low(c: byte)
    requires c < 0x40
    ensures SetBit6(c) == 0x40 + c
    ensures Low6(SetBit6(c)) == c
  {
  }

  /** The unsigned value of two bytes, low byte first. */
  function Join16(b0: byte, b1: byte): (v: nat)
  {
    b0 + 0x100 * b1
  }

  /** The unsigned value of four bytes, low byte first. */
  function Join32(b0: byte, b1: byte, b2: byte, b3: byte): (r: u32)
  {
    b0 + 0x100 * b1 + 0x1_0000 * b2 + 0x100_0000 * b3
  }

  /** Little-endian 16-bit field at `off`. */
  function LE16(s: seq<byte>, off: nat): (v: nat)
    requires off + 2 <= |s|
    ensures v < 0x1_0000
  {
    Join16(s[off], s[off + 1])
  }

  /** Little-endian 32-bit field at `off`. */
  function LE32(s: seq<byte>, off: nat): (r: u32)
    requires off + 4 <= |s|
  {
    Join32(s[off], s[off + 1], s[off + 2], s[off + 3])
  }

  /** Big-endian 32-bit field at `off`. */
  function BE32(s: seq<byte>, off: nat): (r: u32)
    requires off + 4 <= |s|
  {
    Join32(s[off + 3], s[off + 2], s[off + 1], s[off])
  }

  /** The two bytes of a 16-bit value, low byte first. */
  function LE16Bytes(x: nat): (bs: seq<byte>)
    requires x < 0x1_0000
  {
    [x % 0x100, x / 0x100]
  }

  /** The four bytes of a 32-bit value, low byte first. */
  function LE32Bytes(x: u32): (bs: seq<byte>)
  {
    [x % 0x100, x / 0x100 % 0x100, x / 0x1_0000 % 0x100, x / 0x100_0000]
  }

  /** Joining the bytes of a split value gives the value back. */
  lemma JoinSplit32(x: u32)
    ensures Join32(x % 0x100, x / 0x100 % 0x100, x / 0x1_0000 % 0x100, x / 0x100_0000) == x
  {
    var q1 := x / 0x100;
    var q2 := q1 / 0x100;
    assert x == x % 0x100 + 0x100 * q1;
    assert q1 == q1 % 0x100 + 0x100 * q2;
    assert q2 == q2 % 0x100 + 0x100 * (q2 / 0x100);
    assert q1 / 0x100 == x / 0x1_0000;
    assert q2 / 0x100 == x / 0x100_0000;
  }

  /** Splitting a joined value gives its bytes back. */
  lemma SplitJoin32(b0: byte, b1: byte, b2: byte, b3: byte)
    ensures var x := Join32(b0, b1, b2, b3);
      x % 0x100 == b0 && x / 0x100 % 0x100 == b1 && x / 0x1_0000 % 0x100 == b2 && x / 0x100_0000 == b3
  {
    var x := Join32(b0, b1, b2, b3);
    var hi := b1 + 0x100 * b2 + 0x1_0000 * b3;
    assert x == b0 + 0x100 * hi;
    assert x / 0x100 == hi;
    var hi2 := b2 + 0x100 * b3;
    assert hi == b1 + 0x100 * hi2;
    assert x / 0x1_0000 == hi2;
  }

  /** Decoding the little-endian encoding of a 32-bit value yields the value. */
  lemma LE32RoundTrip(x: u32)
    ensures LE32(LE32Bytes(x), 0) == x
  {
    JoinSplit32(x);
  }

  /** A 32-bit field is exactly the little-endian encoding of its decoded value. */
  lemma LE32Encodes(s: seq<byte>, off: nat)
    requires off + 4 <= |s|
    ensures LE32Bytes(LE32(s, off)) == s[off..off + 4]
  {
    SplitJoin32(s[off], s[off + 1], s[off + 2], s[off + 3]);
  }

  /** A 16-bit field is exactly the little-endian encoding of its decoded value. */
  lemma LE16Encodes(s: seq<byte>, off: nat)
    requires off + 2 <= |s|
    ensures LE16Bytes(LE16(s, off)) == s[off..off + 2]
  {
  }

  /** Two fields with the same four bytes decode to the same value, and
      different values have different encodings. */
  lemma LE32Injective(x: u32, y: u32)
    requires LE32Bytes(x) == LE32Bytes(y)
    ensures x == y
  {
    LE32RoundTrip(x);
    LE32RoundTrip(y);
  }

  /** Two 16-bit values with the same encoding are equal. */
  lemma LE16Injective(x: u16, y: u16)
    requires LE16Bytes(x) == LE16Bytes(y)
    ensures x == y
  {
    assert LE16(LE16Bytes(x), 0) == x;
    assert LE16(LE16Bytes(y), 0) == y;
  }

  /** Reduction modulo 2^32 may be applied to a summand early or late. */
  lemma WrapAdd(a: int, b: int)
    ensures Wrap32(a + Wrap32(b)) == Wrap32(a + b)
  {
    var q := b / TWO_32;
    assert b == Wrap32(b) + TWO_32 * q;
    assert a + b == (a + Wrap32(b)) + TWO_32 * q;
    WrapMultiple(a + Wrap32(b), q);
  }

  /** Reduction modulo 2^32 may be applied to a factor early or late. */
  lemma WrapMul(a: int, b: int)
    ensures Wrap32(a * Wrap32(b)) == Wrap32(a * b)
  {
    var q := b / TWO_32;
    assert b == Wrap32(b) + TWO_32 * q;
    assert a * b == a * Wrap32(b) + TWO_32 * (a * q);
    WrapMultiple(a * Wrap32(b), a * q);
  }

  /** A product of counts is a count. */
  lemma MulNat(a: nat, b: nat)
    ensures 0 <= a * b
  {
  }

  /** A value already in range is its own `uint32_t` reduction. */
  lemma WrapSmall(x: int)
    ensures 0 <= x < TWO_32 ==> Wrap32(x) == x
  {
  }

  /** Adding a multiple of 2^32 does not change the `uint32_t` value. */
  lemma WrapMultiple(x: int, k: int)
    ensures Wrap32(x + TWO_32 * k) == Wrap32(x)
  {
  }
}

=== FILE: directory.dfy ===
/** The root-directory listing of `main.c`: the 8.3 name of a record
    (`print_filename`), the record filter and the decoded attribute and size
    (`print_dir_entry`), and the scan over the sixteen 32-byte records of
    one sector. */
module Directory {
  import opened Bytes
  import opened Options
  import opened Seqs

  const RECORD_SIZE: nat := 32
  const RECORDS_PER_SECTOR: nat := 16

  /** Offsets within a record. */
  const BASE_LEN: nat := 8
  const NAME_LEN: nat := 11
  const ATTR: nat := 11
  const FILE_SIZE: nat := 28

  /** Size of the character buffer `print_filename` fills, terminator
      included. */
  const NAME_BUFFER: nat := 13

  const SPACE: byte := 0x20
  const DOT: byte := 0x2E

  /** First-byte marks of free records. */
  const FREE_END: byte := 0x00
  const DELETED: byte := 0xE5

  /** Attribute values named by the FAT specification. */
  const ATTR_VOLUME_ID: byte := 0x08
  const ATTR_LONG_NAME: byte := 0x0F
  const ATTR_DIRECTORY: byte := 0x10
  const ATTR_ARCHIVE: byte := 0x20

  /** One 32-byte directory record. */
  type Record = r: seq<byte> | |r| == RECORD_SIZE witness seq(32, _ => 0)

  /** The values `print_dir_entry` passes to the printing code for a
      record: its name, its attribute byte and its size in bytes. */
  datatype Entry = Entry(name: seq<byte>, attr: byte, size: u32)

  // ---------------------------------------------------------------------
  // Names

  /** The bytes of `s` before its first space; all of `s` when it has
      none. */
  function TakeToSpace(s: seq<byte>): (r: seq<byte>)
    ensures |r| <= |s|
  {
    if s == [] || s[0] == SPACE then [] else [s[0]] + TakeToSpace(s[1..])
  }

  /** `TakeToSpace` returns a prefix without spaces that stops at a space
      or at the end. */
  lemma {:induction false} TakeToSpaceStops(s: seq<byte>)
    ensures var r := TakeToSpace(s);
      && r <= s
      && SPACE !in r
      && (|r| < |s| ==> s[|r|] == SPACE)
  {
    if s != [] && s[0] != SPACE {
      TakeToSpaceStops(s[1..]);
      var r := TakeToSpace(s);
      assert r == [s[0]] + TakeToSpace(s[1..]);
      assert s == [s[0]] + s[1..];
    }
  }

  /** Those properties pin the result down: a prefix free of spaces that
      stops at a space or at the end is the one `TakeToSpace` returns. */
  lemma {:induction false} TakeToSpaceUnique(s: seq<byte>, k: nat)
    requires k <= |s|
    requires SPACE !in s[..k]
    requires k == |s| || s[k] == SPACE
    ensures TakeToSpace(s) == s[..k]
    decreases k
  {
    if k > 0 {
      assert s[0] == s[..k][0];
      assert s[1..][..k - 1] == s[1..k];
      assert s[1..][..k - 1] == s[..k][1..];
      TakeToSpaceUnique(s[1..], k - 1);
      assert s[..k] == [s[0]] + s[1..k];
    }
  }

  /** Spaces, `n` of them. */
  function Spaces(n: nat): (r: seq<byte>)
    ensures |r| == n
  {
    seq(n, _ => SPACE)
  }

  /** A name part of at most `max` characters, none of them a space. */
  predicate NamePart(s: seq<byte>, max: nat)
  {
    |s| <= max && SPACE !in s
  }

  /** A name part padded with spaces loses its padding again. */
  lemma TakeToSpacePadded(w: seq<byte>, n: nat)
    requires SPACE !in w
    ensures TakeToSpace(w + Spaces(n)) == w
  {
    var s := w + Spaces(n);
    assert s[..|w|] == w;
    TakeToSpaceUnique(s, |w|);
  }

  /** The name `print_filename` hands to `usart0_puts`: the base up to its
      first space and, when byte 8 is not a space, a dot and the extension
      up to its first space. It has no spaces and, with its terminator,
      fits the 13-byte buffer. */
  function DecodeName(rec: Record): (name: seq<byte>)
    ensures |name| < NAME_BUFFER
  {
    var base := TakeToSpace(rec[..BASE_LEN]);
    if rec[BASE_LEN] == SPACE then base
    else base + [DOT] + TakeToSpace(rec[BASE_LEN..NAME_LEN])
  }

  /** The decoded name holds no space. It starts with the base: bytes 0..7
      up to the first space, or all eight. When byte 8 is a space that is
      the whole name; otherwise a dot follows, then the extension: bytes
      8..10 up to the first space, or all three. */
  lemma DecodeNameParts(rec: Record)
    ensures var name := DecodeName(rec);
      var base := TakeToSpace(rec[..BASE_LEN]);
      && SPACE !in name
      && base <= rec[..BASE_LEN]
      && (|base| < BASE_LEN ==> rec[|base|] == SPACE)
      && name[..|base|] == base
      && (rec[BASE_LEN] == SPACE <==> |name| == |base|)
      && (rec[BASE_LEN] != SPACE ==>
            var ext := name[|base| + 1..];
            && name[|base|] == DOT
            && ext <= rec[BASE_LEN..NAME_LEN]
            && (|ext| < NAME_LEN - BASE_LEN ==> rec[BASE_LEN + |ext|] == SPACE))
  {
    TakeToSpaceStops(rec[..BASE_LEN]);
    TakeToSpaceStops(rec[BASE_LEN..NAME_LEN]);
  }

  /** The eleven name bytes of a record for base name `base` and extension
      `ext`, each padded with spaces. */
  function PadName(base: seq<byte>, ext: seq<byte>): (field: seq<byte>)
    requires NamePart(base, BASE_LEN) && NamePart(ext, NAME_LEN - BASE_LEN)
    ensures |field| == NAME_LEN
  {
    base + Spaces(BASE_LEN - |base|) + ext + Spaces(NAME_LEN - BASE_LEN - |ext|)
  }

  /** The 8.3 form: `BASE.EXT`, or `BASE` when the extension is empty. */
  function DottedName(base: seq<byte>, ext: seq<byte>): (r: seq<byte>)
  {
    if ext == [] then base else base + [DOT] + ext
  }

  /** Decoding a space-padded 8.3 field gives the name back, whatever the
      other 21 bytes of the record hold. */
  lemma DecodePadded(base: seq<byte>, ext: seq<byte>, rest: seq<byte>)
    requires NamePart(base, BASE_LEN) && NamePart(ext, NAME_LEN - BASE_LEN)
    requires |rest| == RECORD_SIZE - NAME_LEN
    ensures DecodeName(PadName(base, ext) + rest) == DottedName(base, ext)
  {
    var rec: Record := PadName(base, ext) + rest;
    var head := base + Spaces(BASE_LEN - |base|);
    var tail := ext + Spaces(NAME_LEN - BASE_LEN - |ext|);
    assert rec[..BASE_LEN] == head;
    assert rec[BASE_LEN..NAME_LEN] == tail;
    TakeToSpacePadded(base, BASE_LEN - |base|);
    TakeToSpacePadded(ext, NAME_LEN - BASE_LEN - |ext|);
    assert rec[BASE_LEN] == tail[0];
    if ext != [] {
      assert tail[0] == ext[0];
      assert ext[0] in ext;
    }
  }

  /** One copy loop of `print_filename`: copy `rec[from..to]` into the
      buffer at `j` until a space. The buffer gains exactly the bytes before
      the first space. */
  method CopyToSpace(rec: Record, from: nat, to: nat, buf: seq<byte>, j: nat)
    returns (buf': seq<byte>, j': nat)
    requires from <= to <= |rec| && j + (to - from) <= |buf|
    ensures |buf'| == |buf|
    ensures j' == j + |TakeToSpace(rec[from..to])|
    ensures buf'[..j'] == buf[..j] + TakeToSpace(rec[from..to])
  {
    buf' := buf;
    j' := j;
    var i := from;
    while i < to
      invariant from <= i <= to && j' == j + (i - from) && |buf'| == |buf|
      invariant buf'[..j'] + TakeToSpace(rec[i..to]) == buf[..j] + TakeToSpace(rec[from..to])
    {
      if rec[i] == SPACE {
        break;
      }
      assert rec[i..to] == [rec[i]] + rec[i + 1..to];
      buf' := buf'[j' := rec[i]];
      assert buf'[..j' + 1] == buf'[..j'] + [rec[i]];
      j' := j' + 1;
      i := i + 1;
    }
  }

  /** `print_filename` as written: copy base bytes until a space or eight
      of them, then, when byte 8 is not a space, a dot and extension bytes
      until a space or the eleventh byte, into a 13-byte buffer that is
      then terminated. Every write stays inside the buffer, and the string
      handed to `usart0_puts` is the decoded name. */
  method FormatName(rec: Record) returns (name: seq<byte>)
    ensures name == DecodeName(rec)
  {
    var blank: seq<byte> := seq(NAME_BUFFER, _ => 0);
    assert blank[..0] == [];
    assert rec[0..BASE_LEN] == rec[..BASE_LEN];
    var buf, j := CopyToSpace(rec, 0, BASE_LEN, blank, 0);
    assert buf[..j] == TakeToSpace(rec[..BASE_LEN]);
    if rec[BASE_LEN] != SPACE {
      buf, j := CopyExtension(rec, buf, j);
    }
    ghost var text := buf[..j];
    assert text == DecodeName(rec);
    buf := buf[j := 0];
    assert buf[..j] == text;
    name := buf[..j];
  }

  /** The second half of `print_filename`: a dot, then the extension
      bytes up to the first space. */
  method CopyExtension(rec: Record, buf: seq<byte>, j: nat) returns (buf': seq<byte>, j': nat)
    requires j + 1 + (NAME_LEN - BASE_LEN) <= |buf|
    ensures |buf'| == |buf|
    ensures j' == j + 1 + |TakeToSpace(rec[BASE_LEN..NAME_LEN])|
    ensures buf'[..j'] == buf[..j] + [DOT] + TakeToSpace(rec[BASE_LEN..NAME_LEN])
  {
    buf' := buf[j := DOT];
    assert buf'[..j + 1] == buf[..j] + [DOT];
    buf', j' := CopyToSpace(rec, BASE_LEN, NAME_LEN, buf', j + 1);
  }

  // ---------------------------------------------------------------------
  // Records

  /** `print_dir_entry`'s filter: a record is printed unless its first
      byte marks it free (0x00) or deleted (0xE5), or its attribute has the
      volume-label bit 0x08, which long-name records (0x0F) carry too.
      Directories are printed like files. */
  predicate Reported(rec: Record)
  {
    rec[0] != FREE_END && rec[0] != DELETED && !Bit3(rec[ATTR])
  }

  /** The values `print_dir_entry` passes to the printing code for a
      record it does not filter out: the decoded name, the attribute byte
      11 and the little-endian `uint32_t` size at 28..31. The size is kept
      whole, as a decimal conversion of an unsigned 32-bit value would
      print it; `SizeArgAsWritten` is what the 16-bit `itoa` receives. */
  function EntryOf(rec: Record): (r: Entry)
  {
    Entry(DecodeName(rec), rec[ATTR], LE32(rec, FILE_SIZE))
  }

  /** What `print_dir_entry` passes to the printing code for a record, if
      anything: a record is reported exactly when its first byte is
      neither 0x00 nor 0xE5 and bit 3 (0x08, volume label) of its
      attribute byte is clear, and then it carries the decoded name,
      attribute byte 11 and the size whose little-endian encoding is
      bytes 28..31. */
  function DecodeEntry(rec: Record): (e: Option<Entry>)
    ensures e.Some? <==> rec[0] != 0x00 && rec[0] != 0xE5 && (rec[ATTR] as bv8) & 0x08 == 0
    ensures e.Some? ==>
      && e.value.name == DecodeName(rec)
      && e.value.attr == rec[ATTR]
      && LE32Bytes(e.value.size) == rec[FILE_SIZE..FILE_SIZE + 4]
  {
    Bit3IsMask(rec[ATTR] as bv8);
    LE32Encodes(rec, FILE_SIZE);
    if Reported(rec) then Some(EntryOf(rec)) else None
  }

  /** The entry handed to the printing code carries the decoded name,
      attribute byte 11, and the size whose little-endian encoding is
      bytes 28..31. */
  lemma EntryFields(rec: Record)
    ensures var e := EntryOf(rec);
      && e.name == DecodeName(rec)
      && e.attr == rec[ATTR]
      && LE32Bytes(e.size) == rec[FILE_SIZE..FILE_SIZE + 4]
  {
    LE32Encodes(rec, FILE_SIZE);
  }

  /** The value avr-libc's `itoa` receives for a size: its parameter is a
      16-bit `int`, so the `uint32_t` is cut to its low 16 bits, read as
      two's complement. The result is the one 16-bit value congruent to the
      size modulo 2^16. */
  function SizeArgAsWritten(size: u32): (v: int)
    ensures -0x8000 <= v < 0x8000
    ensures (size - v) % 0x1_0000 == 0
  {
    var low := size % 0x1_0000;
    if low < 0x8000 then low else low - 0x1_0000
  }

  /** `itoa` shows the size unchanged exactly when it is below 32768. */
  lemma SizeArgAsWrittenExact(size: u32)
    ensures SizeArgAsWritten(size) == size <==> size < 0x8000
  {
  }

  /** A 40000-byte file is listed with size -25536, and a 70000-byte file
      with 4464. */
  lemma SizeArgAsWrittenExample()
    ensures SizeArgAsWritten(40000) == -25536
    ensures SizeArgAsWritten(70000) == 4464
  {
  }

  /** Long-name and volume-label records are never printed; directories,
      archive files and plain files with a live first byte always are. */
  lemma AttributeFilter(rec: Record)
    ensures rec[ATTR] == ATTR_LONG_NAME || rec[ATTR] == ATTR_VOLUME_ID ==> DecodeEntry(rec).None?
    ensures rec[ATTR] == ATTR_DIRECTORY || rec[ATTR] == ATTR_ARCHIVE || rec[ATTR] == 0 ==>
      (DecodeEntry(rec).Some? <==> rec[0] != FREE_END && rec[0] != DELETED)
  {
  }

  /** The bytes of a string whose characters are all below 0x100. */
  function Ascii(s: string): (bs: seq<byte>)
    requires forall i | 0 <= i < |s| :: s[i] as int < 0x100
    ensures |bs| == |s|
  {
    seq(|s|, i requires 0 <= i < |s| => s[i] as int)
  }

  /** The record of a 1234-byte archive file `FILE1.TXT`. */
  function ExampleRecord(): (r: Record)
  {
    Ascii("FILE1   TXT") + [ATTR_ARCHIVE] + seq(16, _ => 0) + LE32Bytes(1234)
  }

  /** It is printed with name `FILE1.TXT`, attribute 0x20 and size 1234. */
  lemma ExampleEntry()
    ensures DecodeEntry(ExampleRecord()) == Some(Entry(Ascii("FILE1.TXT"), 0x20, 1234))
  {
    var rec := ExampleRecord();
    assert rec[..NAME_LEN] == PadName(Ascii("FILE1"), Ascii("TXT"));
    assert rec == PadName(Ascii("FILE1"), Ascii("TXT")) + rec[NAME_LEN..];
    DecodePadded(Ascii("FILE1"), Ascii("TXT"), rec[NAME_LEN..]);
    assert DecodeName(rec) == Ascii("FILE1.TXT");
    assert rec[FILE_SIZE..FILE_SIZE + 4] == LE32Bytes(1234);
    LE32Encodes(rec, FILE_SIZE);
    LE32Injective(LE32(rec, FILE_SIZE), 1234);
  }

  // ---------------------------------------------------------------------
  // The sector scan

  /** Record `k` of a sector: bytes `32 * k` to `32 * k + 31`. */
  function RecordAt(sector: Sector, k: nat): (r: Record)
    requires k < RECORDS_PER_SECTOR
  {
    sector[RECORD_SIZE * k..RECORD_SIZE * k + RECORD_SIZE]
  }

  /** Record `k` of the sector is printed. */
  predicate Printed(sector: Sector, k: nat)
    requires k < RECORDS_PER_SECTOR
  {
    Reported(RecordAt(sector, k))
  }

  /** What `print_dir_entry` makes of each of the sixteen records. */
  function Decoded(sector: Sector): (os: seq<Option<Entry>>)
    ensures |os| == RECORDS_PER_SECTOR
  {
    seq(RECORDS_PER_SECTOR, k requires 0 <= k < RECORDS_PER_SECTOR => DecodeEntry(RecordAt(sector, k)))
  }

  /** Record `k` starts at byte offset `32 * k`. */
  lemma DecodedAt(sector: Sector, k: nat)
    requires k < RECORDS_PER_SECTOR
    ensures Decoded(sector)[k] == DecodeEntry(sector[RECORD_SIZE * k..RECORD_SIZE * k + RECORD_SIZE])
  {
  }

  /** The listing of the root directory's first sector: the entries of the
      printed records, in record order. */
  function Scan(sector: Sector): (r: seq<Entry>)
  {
    Values(Decoded(sector))
  }

  /** The numbers of the printed records, in increasing order. */
  function PrintedRecords(sector: Sector): (r: seq<nat>)
  {
    PresentBelow(Decoded(sector), RECORDS_PER_SECTOR)
  }

  /** The scan prints exactly the reported records, each once, in record
      order: the listed record numbers increase, a record number is listed
      exactly when that record is printed, and entry `i` of the listing is
      the decoding of the `i`-th listed record. */
  lemma ScanLists(sector: Sector)
    ensures var ks := PrintedRecords(sector);
      && |Scan(sector)| == |ks|
      && (forall i, j | 0 <= i < j < |ks| :: ks[i] < ks[j])
      && (forall m | 0 <= m < RECORDS_PER_SECTOR :: m in ks <==> Printed(sector, m))
      && (forall i | 0 <= i < |ks| ::
            ks[i] < RECORDS_PER_SECTOR && Scan(sector)[i] == EntryOf(RecordAt(sector, ks[i])))
  {
    var os := Decoded(sector);
    PresentBelowExact(os, RECORDS_PER_SECTOR);
    ValuesAtPresent(os, RECORDS_PER_SECTOR);
    assert os[..RECORDS_PER_SECTOR] == os;
  }

  /** An entry is printed exactly when some printed record decodes to it. */
  lemma ScanMembership(sector: Sector, e: Entry)
    ensures e in Scan(sector) <==>
      exists k | 0 <= k < RECORDS_PER_SECTOR :: Printed(sector, k) && EntryOf(RecordAt(sector, k)) == e
  {
    var os := Decoded(sector);
    ValuesMembership(os, e);
    if Some(e) in os {
      var k :| 0 <= k < |os| && os[k] == Some(e);
      assert Printed(sector, k) && EntryOf(RecordAt(sector, k)) == e;
    }
    if k :| 0 <= k < RECORDS_PER_SECTOR && Printed(sector, k) && EntryOf(RecordAt(sector, k)) == e {
      assert os[k] == Some(e);
    }
  }

  /** From a free record on, every record is free too: the FAT rule for a
      directory whose end is marked by a 0x00 record. */
  predicate EndMarked(sector: Sector)
  {
    forall k, m | 0 <= k < m < RECORDS_PER_SECTOR ::
      RecordAt(sector, k)[0] == FREE_END ==> RecordAt(sector, m)[0] == FREE_END
  }

  /** The number of the first free (0x00) record from `k` on; 16 when there
      is none. */
  function EndFrom(sector: Sector, k: nat): (n: nat)
    requires k <= RECORDS_PER_SECTOR
    ensures k <= n <= RECORDS_PER_SECTOR
    ensures forall m | k <= m < n :: RecordAt(sector, m)[0] != FREE_END
    ensures n < RECORDS_PER_SECTOR ==> RecordAt(sector, n)[0] == FREE_END
    decreases RECORDS_PER_SECTOR - k
  {
    if k == RECORDS_PER_SECTOR || RecordAt(sector, k)[0] == FREE_END then k
    else EndFrom(sector, k + 1)
  }

  /** The listing that stops at the first 0x00 record, as the FAT
      specification reads the end-of-directory mark. */
  function ScanToEnd(sector: Sector): (r: seq<Entry>)
  {
    Values(Decoded(sector)[..EndFrom(sector, 0)])
  }

  /** On a directory sector that follows the end-mark rule, not stopping at
      the first 0x00 record makes no difference. */
  lemma ScanAgreesWhenEndMarked(sector: Sector)
    requires EndMarked(sector)
    ensures Scan(sector) == ScanToEnd(sector)
  {
    var os := Decoded(sector);
    var n := EndFrom(sector, 0);
    assert os == os[..n] + os[n..];
    forall i | 0 <= i < |os[n..]|
      ensures os[n..][i].None?
    {
      assert RecordAt(sector, n + i)[0] == FREE_END;
    }
    AllAbsent(os[n..]);
    ValuesAppend(os[..n], os[n..]);
    AppendAssoc(Values(os[..n]), [], []);
  }

  /** A free record does not stop the scan: a printed record after it is
      still listed. */
  lemma ScanPassesFreeRecord(sector: Sector, k: nat, m: nat)
    requires k < m < RECORDS_PER_SECTOR
    requires RecordAt(sector, k)[0] == FREE_END && Printed(sector, m)
    ensures EntryOf(RecordAt(sector, m)) in Scan(sector)
  {
    ScanMembership(sector, EntryOf(RecordAt(sector, m)));
  }

  /** A sector whose records are all free, or all deleted, prints
      nothing, whatever their other bytes hold. */
  lemma FilledScansEmpty(sector: Sector, mark: byte)
    requires mark == FREE_END || mark == DELETED
    requires forall k | 0 <= k < RECORDS_PER_SECTOR :: RecordAt(sector, k)[0] == mark
    ensures Scan(sector) == []
  {
    AllAbsent(Decoded(sector));
  }
}

=== FILE: fat32.dfy ===
/** FAT32 geometry as `main.c` decodes it: the first partition's start
    sector from the classic partition table, the BIOS parameter block fields
    of the volume boot record (`parse_fat32_info`), and the sector of the
    root directory's first cluster. All sector arithmetic is `uint32_t`. */
module Fat32 {
  import opened Bytes

  /** Offset of the first partition's starting LBA in the partition table
      sector: entry 0 starts at 0x1BE and holds its LBA at +8. */
  const PART0_LBA: nat := 0x1BE + 8

  /** Offsets of the boot-record fields the reader uses. */
  const BPB_BYTES_PER_SECTOR: nat := 11
  const BPB_SECTORS_PER_CLUSTER: nat := 13
  const BPB_RESERVED_SECTORS: nat := 14
  const BPB_NUM_FATS: nat := 16
  const BPB_FAT_SIZE: nat := 36
  const BPB_ROOT_CLUSTER: nat := 44

  /** Offset of the boot signature 0x55 0xAA, which the reader never checks. */
  const SIGNATURE: nat := 510

  /** `fat32_info_t`: the decoded fields and the two derived start sectors,
      each in its C width. */
  datatype Fat32Info = Fat32Info(
    bytesPerSector: u16,
    sectorsPerCluster: byte,
    reservedSectors: u16,
    numFats: byte,
    fatSize: u32,
    rootCluster: u32,
    fatStart: u32,
    dataStart: u32)

  /** The first partition's start sector: the little-endian 32-bit value at
      offset 454 of the partition table sector, whatever the rest of the
      sector holds. */
  function PartitionStart(mbr: Sector): (lba: u32)
    ensures LE32Bytes(lba) == mbr[PART0_LBA..PART0_LBA + 4]
  {
    LE32Encodes(mbr, PART0_LBA);
    LE32(mbr, PART0_LBA)
  }

  /** `parse_fat32_info`: decodes the six fields, little-endian, and derives
      the FAT and data start sectors with `uint32_t` arithmetic. It checks
      nothing and always returns 1. */
  function ParseFat32Info(vbr: Sector): (res: (byte, Fat32Info))
    ensures res.0 == 1
    ensures var info := res.1;
      && LE16Bytes(info.bytesPerSector) == vbr[BPB_BYTES_PER_SECTOR..BPB_BYTES_PER_SECTOR + 2]
      && info.sectorsPerCluster == vbr[BPB_SECTORS_PER_CLUSTER]
      && LE16Bytes(info.reservedSectors) == vbr[BPB_RESERVED_SECTORS..BPB_RESERVED_SECTORS + 2]
      && info.numFats == vbr[BPB_NUM_FATS]
      && LE32Bytes(info.fatSize) == vbr[BPB_FAT_SIZE..BPB_FAT_SIZE + 4]
      && LE32Bytes(info.rootCluster) == vbr[BPB_ROOT_CLUSTER..BPB_ROOT_CLUSTER + 4]
  {
    LE16Encodes(vbr, BPB_BYTES_PER_SECTOR);
    LE16Encodes(vbr, BPB_RESERVED_SECTORS);
    LE32Encodes(vbr, BPB_FAT_SIZE);
    LE32Encodes(vbr, BPB_ROOT_CLUSTER);
    var reserved := LE16(vbr, BPB_RESERVED_SECTORS);
    var numFats := vbr[BPB_NUM_FATS];
    var fatSize := LE32(vbr, BPB_FAT_SIZE);
    var fatStart: u32 := reserved;
    (1, Fat32Info(
      LE16(vbr, BPB_BYTES_PER_SECTOR),
      vbr[BPB_SECTORS_PER_CLUSTER],
      reserved,
      numFats,
      fatSize,
      LE32(vbr, BPB_ROOT_CLUSTER),
      fatStart,
      DataStart(fatStart, numFats, fatSize)))
  }

  /** The data region's first sector, `fat_start + num_fats * fat_size` in
      `uint32_t`: the product wraps, then the sum wraps, which is one
      reduction modulo 2^32 of the exact value. */
  function DataStart(fatStart: u32, numFats: byte, fatSize: u32): (d: u32)
    ensures d == Wrap32(fatStart + numFats * fatSize)
  {
    WrapAdd(fatStart, numFats * fatSize);
    Wrap32(fatStart + Wrap32(numFats * fatSize))
  }

  /** The FAT region starts right after the reserved sectors, and the data
      region after the FATs: `reserved + numFats * fatSize`, reduced modulo
      2^32 once, as `uint32_t` arithmetic does. */
  lemma ParseGeometry(vbr: Sector)
    ensures var info := ParseFat32Info(vbr).1;
      && info.fatStart == info.reservedSectors
      && info.dataStart == Wrap32(info.reservedSectors + info.numFats * info.fatSize)
  {
    var info := ParseFat32Info(vbr).1;
    assert info.dataStart == DataStart(info.reservedSectors, info.numFats, info.fatSize);
  }

  /** Without overflow the data start is the exact sector count of the
      reserved region and the FATs. */
  lemma DataStartExact(fatStart: u32, numFats: byte, fatSize: u32)
    requires fatStart + numFats * fatSize < TWO_32
    ensures DataStart(fatStart, numFats, fatSize) == fatStart + numFats * fatSize
  {
    MulNat(numFats, fatSize);
    WrapSmall(fatStart + numFats * fatSize);
  }

  /** The decoded geometry depends on the fourteen field bytes alone: in
      particular neither the boot signature nor the sector size is checked,
      so any sector decodes. */
  lemma ParseReadsOnlyFields(vbr: Sector, other: Sector)
    requires vbr[BPB_BYTES_PER_SECTOR..BPB_NUM_FATS + 1] == other[BPB_BYTES_PER_SECTOR..BPB_NUM_FATS + 1]
    requires vbr[BPB_FAT_SIZE..BPB_FAT_SIZE + 4] == other[BPB_FAT_SIZE..BPB_FAT_SIZE + 4]
    requires vbr[BPB_ROOT_CLUSTER..BPB_ROOT_CLUSTER + 4] == other[BPB_ROOT_CLUSTER..BPB_ROOT_CLUSTER + 4]
    ensures ParseFat32Info(vbr) == ParseFat32Info(other)
  {
    var a := ParseFat32Info(vbr).1;
    var b := ParseFat32Info(other).1;
    assert vbr[BPB_BYTES_PER_SECTOR..BPB_BYTES_PER_SECTOR + 2] == other[BPB_BYTES_PER_SECTOR..BPB_BYTES_PER_SECTOR + 2];
    assert vbr[BPB_RESERVED_SECTORS..BPB_RESERVED_SECTORS + 2] == other[BPB_RESERVED_SECTORS..BPB_RESERVED_SECTORS + 2];
    assert vbr[BPB_SECTORS_PER_CLUSTER] == other[BPB_SECTORS_PER_CLUSTER];
    assert vbr[BPB_NUM_FATS] == other[BPB_NUM_FATS];
    LE16Injective(a.bytesPerSector, b.bytesPerSector);
    LE16Injective(a.reservedSectors, b.reservedSectors);
    LE32Injective(a.fatSize, b.fatSize);
    LE32Injective(a.rootCluster, b.rootCluster);
  }

  /** The partition start depends on bytes 454..457 alone; the boot
      signature is not checked. */
  lemma PartitionStartReadsOnlyEntry(mbr: Sector, other: Sector)
    requires mbr[PART0_LBA..PART0_LBA + 4] == other[PART0_LBA..PART0_LBA + 4]
    ensures PartitionStart(mbr) == PartitionStart(other)
  {
    LE32Injective(PartitionStart(mbr), PartitionStart(other));
  }

  /** The first sector of the root directory, counted from the start of the
      volume: the data region start plus `sectorsPerCluster` sectors for
      each cluster before the root cluster, every step in `uint32_t`. */
  function FirstRootSector(info: Fat32Info): (r: u32)
  {
    Wrap32(info.dataStart + Wrap32(info.sectorsPerCluster * Wrap32(info.rootCluster - 2)))
  }

  /** The `uint32_t` steps amount to one reduction modulo 2^32 of the
      cluster-to-sector formula of the FAT32 specification (section 6.7 of
      fatgen103), which gives the exact sector whenever the root cluster is
      a data cluster (at least 2) and the sum does not overflow. */
  lemma FirstRootSectorFormula(info: Fat32Info)
    ensures var exact := info.dataStart + info.sectorsPerCluster * (info.rootCluster - 2);
      && FirstRootSector(info) == Wrap32(exact)
      && (info.rootCluster >= 2 && exact < TWO_32 ==> FirstRootSector(info) == exact)
  {
    var spc := info.sectorsPerCluster;
    var exact := info.dataStart + spc * (info.rootCluster - 2);
    WrapMul(spc, info.rootCluster - 2);
    WrapAdd(info.dataStart, spc * (info.rootCluster - 2));
    if info.rootCluster >= 2 && exact < TWO_32 {
      MulNat(spc, info.rootCluster - 2);
      WrapSmall(exact);
    }
  }

  /** For geometry as `parse_fat32_info` derives it, the root directory
      starts `reserved + numFats * fatSize + sectorsPerCluster *
      (rootCluster - 2)` sectors into the volume, modulo 2^32. */
  lemma RootSectorOfVolume(info: Fat32Info)
    requires info.dataStart == Wrap32(info.reservedSectors + info.numFats * info.fatSize)
    ensures FirstRootSector(info) == Wrap32(info.reservedSectors + info.numFats * info.fatSize
                                            + info.sectorsPerCluster * (info.rootCluster - 2))
  {
    var start := info.reservedSectors + info.numFats * info.fatSize;
    var rest := info.sectorsPerCluster * (info.rootCluster - 2);
    FirstRootSectorFormula(info);
    assert FirstRootSector(info) == Wrap32(rest + Wrap32(start));
    WrapAdd(rest, start);
    assert rest + start == start + rest;
  }

  /** A root cluster of 0 or 1 names no data cluster: `root_cluster - 2`
      wraps to `2^32 - 2 + root_cluster`, and the formula counts that many
      clusters past the data start, modulo 2^32. */
  lemma RootClusterBelowTwoWraps(info: Fat32Info)
    requires info.rootCluster < 2
    ensures FirstRootSector(info)
         == Wrap32(info.dataStart + info.sectorsPerCluster * (TWO_32 - 2 + info.rootCluster))
  {
    var spc := info.sectorsPerCluster;
    FirstRootSectorFormula(info);
    WrapMultiple(info.dataStart + spc * (info.rootCluster - 2), spc);
  }

  /** The card sector holding sector `volumeSector` of the volume that
      starts at card sector `partStart`, in `uint32_t`. The boot record is
      volume sector 0 and is read from the partition start. */
  function VolumeToCard(partStart: u32, volumeSector: u32): (lba: u32)
    ensures Wrap32(lba - partStart) == volumeSector
    ensures partStart + volumeSector < TWO_32 ==> lba == partStart + volumeSector
  {
    WrapAdd(-(partStart as int), partStart + volumeSector);
    WrapSmall(volumeSector);
    WrapSmall(partStart + volumeSector);
    Wrap32(partStart + volumeSector)
  }

  /** Distinct volume sectors live in distinct card sectors, and the boot
      record is at the partition start. */
  lemma VolumeToCardInjective(partStart: u32, x: u32, y: u32)
    ensures VolumeToCard(partStart, 0) == partStart
    ensures VolumeToCard(partStart, x) == VolumeToCard(partStart, y) <==> x == y
  {
    assert Wrap32(VolumeToCard(partStart, 0) - partStart) == 0;
  }

  /** The card sector `main` reads the root directory from, as written: the
      volume-relative first root sector is passed to the card unchanged,
      although the boot record came from the partition start. */
  function RootDirCardSectorAsWritten(partStart: u32, info: Fat32Info): (lba: u32)
  {
    FirstRootSector(info)
  }

  /** The card sector of the root directory's first sector: the first root
      sector counted from the start of the partition. */
  function RootDirCardSector(partStart: u32, info: Fat32Info): (lba: u32)
    ensures Wrap32(lba - partStart) == FirstRootSector(info)
  {
    VolumeToCard(partStart, FirstRootSector(info))
  }

  /** As written, the sector read for the root directory does not depend on
      where the partition starts, so it is the right one only for a volume
      that starts at card sector 0. */
  lemma RootDirAsWrittenIgnoresPartition(p: u32, q: u32, info: Fat32Info)
    ensures RootDirCardSectorAsWritten(p, info) == RootDirCardSectorAsWritten(q, info)
    ensures RootDirCardSectorAsWritten(p, info) == RootDirCardSector(p, info) <==> p == 0
  {
    var r := FirstRootSector(info);
    VolumeToCardInjective(0, r, r);
    if RootDirCardSectorAsWritten(p, info) == RootDirCardSector(p, info) {
      WrapSmall(r);
      assert Wrap32(r - p) == r;
      WrapMultiple(r - p, 1);
    }
  }

  /** A boot record of a volume with 512-byte sectors, 4 sectors per
      cluster, 32 reserved sectors, 2 FATs of 970 sectors and root
      cluster 2. */
  function ExampleVbr(): (vbr: Sector)
  {
    seq(SECTOR_SIZE, i =>
      if i == 12 then 0x02
      else if i == 13 then 4
      else if i == 14 then 32
      else if i == 16 then 2
      else if i == 36 then 0xCA
      else if i == 37 then 0x03
      else if i == 44 then 2
      else if i == SIGNATURE then 0x55
      else if i == SIGNATURE + 1 then 0xAA
      else 0)
  }

  /** The boot-sector fields of the example volume. */
  lemma ExampleFields()
    ensures var vbr := ExampleVbr();
      && LE16(vbr, BPB_BYTES_PER_SECTOR) == 512
      && vbr[BPB_SECTORS_PER_CLUSTER] == 4
      && LE16(vbr, BPB_RESERVED_SECTORS) == 32
      && vbr[BPB_NUM_FATS] == 2
      && LE32(vbr, BPB_FAT_SIZE) == 970
      && LE32(vbr, BPB_ROOT_CLUSTER) == 2
  {
    var vbr := ExampleVbr();
    assert vbr[11] == 0 && vbr[12] == 2 && vbr[13] == 4 && vbr[14] == 32 && vbr[15] == 0 && vbr[16] == 2;
    assert vbr[36] == 0xCA && vbr[37] == 3 && vbr[38] == 0 && vbr[39] == 0;
    assert vbr[44] == 2 && vbr[45] == 0 && vbr[46] == 0 && vbr[47] == 0;
  }

  /** The geometry the example volume parses to. */
  const EXAMPLE_INFO := Fat32Info(512, 4, 32, 2, 970, 2, 32, 1972)

  /** The example boot sector parses to that geometry: the FAT starts at
      sector 32 of the volume and the data region at 32 + 2 * 970 = 1972. */
  lemma ExampleParses()
    ensures ParseFat32Info(ExampleVbr()) == (1, EXAMPLE_INFO)
  {
    ExampleFields();
    assert DataStart(32, 2, 970) == 1972;
  }

  /** The root directory, cluster 2, is the first cluster of the data
      region, so it also starts at sector 1972 of the volume. */
  lemma ExampleRootSector()
    ensures FirstRootSector(EXAMPLE_INFO) == 1972
  {
  }

  /** For the example volume in a partition at card sector 2048, the
      program as written reads card sector 1972, which lies before the
      partition, instead of card sector 4020. */
  lemma ExampleRootDirOutsidePartition()
    ensures RootDirCardSectorAsWritten(2048, EXAMPLE_INFO) == 1972
    ensures RootDirCardSector(2048, EXAMPLE_INFO) == 4020
  {
    ExampleRootSector();
  }
}

=== FILE: listing.dfy ===
/** The listing loop of `main`: the records of the root directory's first
    sector, printed in turn. */
module Listing {
  import opened Bytes
  import opened Options
  import opened Directory

  /** The loop of `main` as written: visit the records at offsets 0, 32,
      ..., 480 in turn and print each reported one. It does not stop at a
      free record. Returns the entries printed, in order. */
  method ListSector(sector: Sector) returns (entries: seq<Entry>)
    ensures entries == Scan(sector)
  {
    entries := [];
    var i := 0;
    var k := 0;
    while i < SECTOR_SIZE
      invariant i == RECORD_SIZE * k && k <= RECORDS_PER_SECTOR
      invariant entries == Values(Decoded(sector)[..k])
    {
      var printed := DecodeEntry(sector[i..i + RECORD_SIZE]);
      DecodedAt(sector, k);
      ValuesPrefixStep(Decoded(sector), k);
      if printed.Some? {
        entries := entries + [printed.value];
      }
      i := i + RECORD_SIZE;
      k := k + 1;
    }
    assert Decoded(sector)[..k] == Decoded(sector);
  }
}

=== FILE: options.dfy ===
/** Optional values, and the values kept when a sequence of optional
    values is filtered: the shape of a listing that prints some records of
    a table and skips the others. */
module Options {
  import opened Seqs

  datatype Option<T> = None | Some(value: T)

  /** What one optional value contributes: its value, or nothing. */
  function Kept<T>(o: Option<T>): (vs: seq<T>)
    ensures |vs| <= 1
  {
    match o
    case Some(v) => [v]
    case None => []
  }

  /** The values of the present options, in order, built from the front. */
  function Values<T>(os: seq<Option<T>>): (vs: seq<T>)
    ensures |vs| <= |os|
  {
    if |os| == 0 then [] else Values(os[..|os| - 1]) + Kept(os[|os| - 1])
  }

  /** Taking one more option of a sequence adds what it contributes. */
  lemma ValuesPrefixStep<T>(os: seq<Option<T>>, k: nat)
    requires k < |os|
    ensures Values(os[..k + 1]) == Values(os[..k]) + Kept(os[k])
  {
    assert os[..k + 1][..k] == os[..k];
  }

  /** Filtering distributes over concatenation. */
  lemma {:induction false} ValuesAppend<T>(a: seq<Option<T>>, b: seq<Option<T>>)
    ensures Values(a + b) == Values(a) + Values(b)
    decreases |b|
  {
    if |b| == 0 {
      assert a + b == a;
      AppendAssoc(Values(a), [], []);
    } else {
      var c := b[..|b| - 1];
      assert (a + b)[..|a + b| - 1] == a + c;
      assert b[..|b| - 1] == c;
      ValuesAppend(a, c);
      AppendAssoc(Values(a), Values(c), Kept(b[|b| - 1]));
    }
  }

  /** A value is kept exactly when it is present in some option. */
  lemma {:induction false} ValuesMembership<T>(os: seq<Option<T>>, x: T)
    ensures x in Values(os) <==> Some(x) in os
    decreases |os|
  {
    if |os| > 0 {
      var init := os[..|os| - 1];
      ValuesMembership(init, x);
      assert os == init + [os[|os| - 1]];
      assert x in Kept(os[|os| - 1]) <==> os[|os| - 1] == Some(x);
    }
  }

  /** Nothing present, nothing kept. */
  lemma {:induction false} AllAbsent<T>(os: seq<Option<T>>)
    requires forall i | 0 <= i < |os| :: os[i].None?
    ensures Values(os) == []
    decreases |os|
  {
    if |os| > 0 {
      AllAbsent(os[..|os| - 1]);
    }
  }

  /** The positions of the present options below `n`, in increasing order. */
  function PresentBelow<T>(os: seq<Option<T>>, n: nat): (ks: seq<nat>)
    requires n <= |os|
    ensures forall i | 0 <= i < |ks| :: ks[i] < n && os[ks[i]].Some?
  {
    if n == 0 then []
    else PresentBelow(os, n - 1) + (if os[n - 1].Some? then [n - 1] else [])
  }

  /** `PresentBelow` lists, in increasing order, exactly the positions below
      `n` that hold a value. */
  lemma {:induction false} PresentBelowExact<T>(os: seq<Option<T>>, n: nat)
    requires n <= |os|
    ensures var ks := PresentBelow(os, n);
      && (forall i, j | 0 <= i < j < |ks| :: ks[i] < ks[j])
      && (forall m | 0 <= m < n :: m in ks <==> os[m].Some?)
  {
    if n > 0 {
      PresentBelowExact(os, n - 1);
      var init := PresentBelow(os, n - 1);
      var ks := PresentBelow(os, n);
      if os[n - 1].Some? {
        assert ks == init + [n - 1];
        assert forall i | 0 <= i < |init| :: ks[i] == init[i];
      } else {
        assert ks == init;
      }
    }
  }

  /** The values at the listed positions, in that order. */
  function At<T>(os: seq<Option<T>>, ks: seq<nat>): (vs: seq<T>)
    requires forall i | 0 <= i < |ks| :: ks[i] < |os| && os[ks[i]].Some?
    ensures |vs| == |ks|
  {
    seq(|ks|, i requires 0 <= i < |ks| => os[ks[i]].value)
  }

  /** Filtering is "find the present positions, then read their values":
      the kept values are the values at the increasing list of present
      positions. */
  lemma {:induction false} ValuesAtPresent<T>(os: seq<Option<T>>, n: nat)
    requires n <= |os|
    ensures Values(os[..n]) == At(os, PresentBelow(os, n))
  {
    if n > 0 {
      ValuesAtPresent(os, n - 1);
      ValuesPrefixStep(os, n - 1);
      var init := PresentBelow(os, n - 1);
      var ks := PresentBelow(os, n);
      var vs := At(os, ks);
      var us := At(os, init);
      if os[n - 1].Some? {
        assert ks == init + [n - 1];
        assert forall i | 0 <= i < |us| :: vs[i] == us[i];
        assert vs == us + [os[n - 1].value];
      } else {
        assert ks == init;
      }
    } else {
      assert os[..0] == [];
    }
  }
}

=== FILE: sd.dfy ===
/** The SD-card protocol in SPI mode as main.c drives it: command framing
    and R1 polling (`sd_send_cmd`), the power-up sequence (`sd_init`) and
    the single-block read (`sd_read_sector`). Command numbers, arguments,
    checksums and retry budgets are those of the source; the protocol is
    the one of sections 7.2 and 7.3 of the SD Physical Layer Simplified
    Specification. */
module Sd {
  import opened Bytes
  import opened Spi
  import opened Seqs

  const CMD_GO_IDLE: byte := 0
  const CMD_SEND_IF_COND: byte := 8
  const CMD_READ_SINGLE: byte := 17
  const CMD_APP: byte := 55
  const CMD_APP_INIT: byte := 41
  const CMD_READ_OCR: byte := 58

  /** CMD8 argument: 2.7-3.6 V supply and check pattern 0xAA. */
  const IF_COND_ARG: u32 := 0x1AA
  /** ACMD41 argument: host supports high capacity (HCS). */
  const HCS_ARG: u32 := 0x4000_0000

  /** The checksum byte each command is sent with. The card checks it on
      CMD0 and CMD8; `GoIdleChecksummed` and its four siblings show that
      the power-up commands carry their valid CRC7. CMD17 is sent with
      0xFF, which the card ignores once it is in SPI mode. */
  const CRC_GO_IDLE: byte := 0x95
  const CRC_SEND_IF_COND: byte := 0x87
  const CRC_APP: byte := 0x65
  const CRC_APP_INIT: byte := 0x77
  const CRC_READ_OCR: byte := 0xFD
  const CRC_UNCHECKED: byte := 0xFF

  /** Bytes polled for an R1 response after a command frame. */
  const R1_POLLS: nat := 8
  /** CMD55/ACMD41 rounds allowed before initialisation gives up. */
  const INIT_TRIES: nat := 0xFFFF
  /** Bytes polled for the start-block token before a read gives up. */
  const TOKEN_POLLS: nat := 0xFFFF
  /** Start-block token of a single-block read. */
  const START_TOKEN: byte := 0xFE

  // ----- Command frames -----

  /** The 6-byte command token: start bits and index, the argument most
      significant byte first, then the checksum byte. */
  function Frame(cmd: byte, arg: u32, crc: byte): (f: seq<byte>)
    ensures |f| == 6
  {
    [SetBit6(cmd), arg / 0x100_0000, arg / 0x1_0000 % 0x100, arg / 0x100 % 0x100, arg % 0x100, crc]
  }

  /** The card's reading of a frame: command index, argument, checksum. */
  function ParseFrame(f: seq<byte>): (r: (byte, u32, byte))
    requires |f| == 6
  {
    (Low6(f[0]), BE32(f, 1), f[5])
  }

  /** Every command index below 64 is framed so that the card reads back
      exactly the index, argument and checksum that were sent. */
  lemma FrameRoundTrip(cmd: byte, arg: u32, crc: byte)
    requires cmd < 0x40
    ensures ParseFrame(Frame(cmd, arg, crc)) == (cmd, arg, crc)
    ensures 0x40 <= Frame(cmd, arg, crc)[0] < 0x80
  {
    SetBit6Low(cmd);
    JoinSplit32(arg);
  }

  /** The frame carries the argument most significant byte first, for
      every command index. */
  lemma FrameFields(cmd: byte, arg: u32, crc: byte)
    ensures var f := Frame(cmd, arg, crc);
      f[0] == SetBit6(cmd) && BE32(f, 1) == arg && f[5] == crc
  {
    JoinSplit32(arg);
  }

  // ----- Checksums -----

  /** One bit through the CRC7 register, generator x^7 + x^3 + 1
      (section 4.5 of the SD Physical Layer Simplified Specification). */
  function Crc7Step(crc: bv8, bit: bv8): (c: bv8)
  {
    var shifted := (crc << 1) & 0x7F;
    if ((crc >> 6) & 1) ^ bit == 1 then shifted ^ 0x09 else shifted
  }

  /** The top `k` bits of `b`, most significant first, through the register. */
  function Crc7Bits(crc: bv8, b: bv8, k: nat): (c: bv8)
    decreases k
  {
    if k == 0 then crc else Crc7Bits(Crc7Step(crc, b >> 7), b << 1, k - 1)
  }

  /** The CRC7 of a byte string, starting from a zero register. */
  function Crc7(bs: seq<bv8>): (c: bv8)
  {
    if bs == [] then 0 else Crc7Bits(Crc7(bs[..|bs| - 1]), bs[|bs| - 1], 8)
  }

  /** `h` is the frame's first five bytes and its last byte is their CRC7
      followed by the end bit, as the card checks it. */
  predicate Checksummed(f: seq<byte>, h: seq<bv8>)
    requires |f| == 6 && |h| == 5
  {
    && (forall k :: 0 <= k < 5 ==> h[k] as int == f[k])
    && ((Crc7(h) << 1) | 1) as int == f[5]
  }

  /** The CRC7 of each power-up command's header, with the register
      value after every byte as the proof's stepping stones. */
  lemma GoIdleCrc()
    ensures Crc7([0x40, 0, 0, 0, 0]) == 0x4A
  {
    var h: seq<bv8> := [0x40, 0, 0, 0, 0];
    assert Crc7(h[..1]) == 0x64 by { assert h[..1][..0] == []; }
    assert Crc7(h[..2]) == 0x6D by { assert h[..2][..1] == h[..1]; }
    assert Crc7(h[..3]) == 0x66 by { assert h[..3][..2] == h[..2]; }
    assert Crc7(h[..4]) == 0x49 by { assert h[..4][..3] == h[..3]; }
    assert h[..5] == h;
    assert h[..5][..4] == h[..4];
  }

  lemma SendIfCondCrc()
    ensures Crc7([0x48, 0, 0, 0x01, 0xAA]) == 0x43
  {
    var h: seq<bv8> := [0x48, 0, 0, 0x01, 0xAA];
    assert Crc7(h[..1]) == 0x2C by { assert h[..1][..0] == []; }
    assert Crc7(h[..2]) == 0x35 by { assert h[..2][..1] == h[..1]; }
    assert Crc7(h[..3]) == 0x0C by { assert h[..3][..2] == h[..2]; }
    assert Crc7(h[..4]) == 0x58 by { assert h[..4][..3] == h[..3]; }
    assert h[..5] == h;
    assert h[..5][..4] == h[..4];
  }

  lemma AppCrc()
    ensures Crc7([0x77, 0, 0, 0, 0]) == 0x32
  {
    var h: seq<bv8> := [0x77, 0, 0, 0, 0];
    assert Crc7(h[..1]) == 0x70 by { assert h[..1][..0] == []; }
    assert Crc7(h[..2]) == 0x17 by { assert h[..2][..1] == h[..1]; }
    assert Crc7(h[..3]) == 0x4C by { assert h[..3][..2] == h[..2]; }
    assert Crc7(h[..4]) == 0x10 by { assert h[..4][..3] == h[..3]; }
    assert h[..5] == h;
    assert h[..5][..4] == h[..4];
  }

  lemma AppInitCrc()
    ensures Crc7([0x69, 0x40, 0, 0, 0]) == 0x3B
  {
    var h: seq<bv8> := [0x69, 0x40, 0, 0, 0];
    assert Crc7(h[..1]) == 0x17 by { assert h[..1][..0] == []; }
    assert Crc7(h[..2]) == 0x28 by { assert h[..2][..1] == h[..1]; }
    assert Crc7(h[..3]) == 0x7D by { assert h[..3][..2] == h[..2]; }
    assert Crc7(h[..4]) == 0x54 by { assert h[..4][..3] == h[..3]; }
    assert h[..5] == h;
    assert h[..5][..4] == h[..4];
  }

  lemma ReadOcrCrc()
    ensures Crc7([0x7A, 0, 0, 0, 0]) == 0x7E
  {
    var h: seq<bv8> := [0x7A, 0, 0, 0, 0];
    assert Crc7(h[..1]) == 0x15 by { assert h[..1][..0] == []; }
    assert Crc7(h[..2]) == 0x68 by { assert h[..2][..1] == h[..1]; }
    assert Crc7(h[..3]) == 0x3C by { assert h[..3][..2] == h[..2]; }
    assert Crc7(h[..4]) == 0x07 by { assert h[..4][..3] == h[..3]; }
    assert h[..5] == h;
    assert h[..5][..4] == h[..4];
  }

  /** Every command of the power-up sequence goes out with the checksum the
      card computes over its first five bytes. */
  lemma GoIdleChecksummed()
    ensures Checksummed(Frame(CMD_GO_IDLE, 0, CRC_GO_IDLE), [0x40, 0, 0, 0, 0])
  {
    GoIdleCrc();
  }

  lemma SendIfCondChecksummed()
    ensures Checksummed(Frame(CMD_SEND_IF_COND, IF_COND_ARG, CRC_SEND_IF_COND), [0x48, 0, 0, 0x01, 0xAA])
  {
    SendIfCondCrc();
  }

  lemma AppChecksummed()
    ensures Checksummed(Frame(CMD_APP, 0, CRC_APP), [0x77, 0, 0, 0, 0])
  {
    AppCrc();
  }

  lemma AppInitChecksummed()
    ensures Checksummed(Frame(CMD_APP_INIT, HCS_ARG, CRC_APP_INIT), [0x69, 0x40, 0, 0, 0])
  {
    AppInitCrc();
  }

  lemma ReadOcrChecksummed()
    ensures Checksummed(Frame(CMD_READ_OCR, 0, CRC_READ_OCR), [0x7A, 0, 0, 0, 0])
  {
    ReadOcrCrc();
  }

  // ----- Polling -----

  /** The card's bytes from `from` to `to - 1` are what a poll of at most
      `budget` bytes saw while waiting for a byte satisfying `done`: all
      but the last fail `done`, and the last satisfies it unless the whole
      budget was used up. */
  predicate Polled(miso: Stream, from: nat, to: nat, budget: nat, done: byte -> bool)
  {
    && from < to <= from + budget
    && (forall j :: from <= j < to - 1 ==> !done(miso(j)))
    && (done(miso(to - 1)) || to == from + budget)
  }

  /** An R1 response is a byte with bit 7 clear; the card drives 0xFF
      while it is busy. */
  predicate IsR1(x: byte)
  {
    !Bit7(x)
  }

  /** The response wait of `sd_send_cmd`, with `left` polls remaining. */
  function PollR1(miso: Stream, bus: Bus, left: nat): (res: (byte, Bus))
    requires 1 <= left
    ensures bus.pos < res.1.pos <= bus.pos + left
    ensures res.1.log == bus.log
    decreases left
  {
    var (r, b) := Transfer(miso, bus, FILLER);
    if IsR1(r) || left == 1 then (r, b)
    else PollR1(miso, b, left - 1)
  }

  /** The R1 poll clocks out only filler bytes, returns the first byte with
      bit 7 clear, and gives up with the last byte polled when all `left`
      bytes had bit 7 set. */
  lemma {:induction false} PollR1Polls(miso: Stream, bus: Bus, left: nat)
    requires 1 <= left
    ensures var (r1, b) := PollR1(miso, bus, left);
      && b.wire == Pad(bus.wire, b.pos - bus.pos)
      && r1 == miso(b.pos - 1)
      && Polled(miso, bus.pos, b.pos, left, IsR1)
    decreases left
  {
    var (r, b) := Transfer(miso, bus, FILLER);
    if !IsR1(r) && left > 1 {
      PollR1Polls(miso, b, left - 1);
      PadFront(bus.wire, PollR1(miso, b, left - 1).1.pos - b.pos);
    }
  }

  /** The R1 loop of `sd_send_cmd` as written: an 8-bit counter from 0 to
      8, leaving early on a byte with bit 7 clear. */
  method PollR1Loop(miso: Stream, bus: Bus) returns (res: byte, b: Bus)
    ensures (res, b) == PollR1(miso, bus, R1_POLLS)
  {
    var i := 0;
    b := bus;
    res := 0;
    while i < 8
      invariant 0 <= i <= 8
      invariant i < 8 ==> PollR1(miso, b, 8 - i) == PollR1(miso, bus, R1_POLLS)
      invariant i == 8 ==> (res, b) == PollR1(miso, bus, R1_POLLS)
    {
      var x := Transfer(miso, b, FILLER);
      res, b := x.0, x.1;
      if !Bit7(res) {
        break;
      }
      i := i + 1;
    }
  }

  // ----- Commands -----

  /** `sd_send_cmd`: select the card, send the frame, poll for R1. The
      command and its response are appended to the bus log. */
  function SendCmd(miso: Stream, bus: Bus, cmd: byte, arg: u32, crc: byte): (res: (byte, Bus))
    ensures res.1.log == bus.log + [Reply(cmd, arg, crc, res.0)]
  {
    var (r1, b) := PollR1(miso, Emit(ChipSelect(bus), Frame(cmd, arg, crc)), R1_POLLS);
    (r1, b.(log := b.log + [Reply(cmd, arg, crc, r1)]))
  }

  /** What `sd_send_cmd` does on the wire: one chip select, the six frame
      bytes, then one to eight filler bytes; the reply is the card's byte
      at which the R1 poll stopped. */
  lemma SendCmdWire(miso: Stream, bus: Bus, cmd: byte, arg: u32, crc: byte)
    ensures var (r1, b) := SendCmd(miso, bus, cmd, arg, crc);
      && r1 == miso(b.pos - 1)
      && Polled(miso, bus.pos + 6, b.pos, R1_POLLS, IsR1)
      && b.wire == Pad(Clock(Then(bus.wire, Select), Frame(cmd, arg, crc)), b.pos - bus.pos - 6)
  {
    PollR1Polls(miso, Emit(ChipSelect(bus), Frame(cmd, arg, crc)), R1_POLLS);
  }

  /** `sd_send_cmd` only appends to the wire, starting with a chip select
      and the frame, and leaves the card selected. */
  lemma SendCmdExtends(miso: Stream, bus: Bus, cmd: byte, arg: u32, crc: byte)
    ensures var b := SendCmd(miso, bus, cmd, arg, crc).1;
      && Extends(bus.wire, b.wire) && Selected(b.wire)
      && Extends(Clock(Then(bus.wire, Select), Frame(cmd, arg, crc)), b.wire)
  {
    var b := SendCmd(miso, bus, cmd, arg, crc).1;
    SendCmdWire(miso, bus, cmd, arg, crc);
    var t1 := Then(bus.wire, Select);
    var t2 := Clock(t1, Frame(cmd, arg, crc));
    ClockExtends(t1, Frame(cmd, arg, crc));
    PadExtends(t2, b.pos - bus.pos - 6);
    ExtendsTrans(t1, t2, b.wire);
    ExtendsTrans(bus.wire, t1, b.wire);
  }

  /** The wire `w`, after `pos` exchanges, ends with one `sd_send_cmd`:
      a chip select, the frame of `cmd`, `arg` and `crc`, and an R1 poll
      that stopped at exchange `pos` with the reply `r1`. */
  ghost predicate CommandEnds(miso: Stream, w: Trace, pos: nat, cmd: byte, arg: u32, crc: byte, r1: byte)
  {
    exists before: Trace, n: nat ::
      && n <= pos
      && w == Pad(Clock(Then(before, Select), Frame(cmd, arg, crc)), n)
      && Polled(miso, pos - n, pos, R1_POLLS, IsR1)
      && r1 == miso(pos - 1)
  }

  /** Every `sd_send_cmd` leaves the wire ending with its own command. */
  lemma SendCmdEnds(miso: Stream, bus: Bus, cmd: byte, arg: u32, crc: byte)
    ensures var (r1, b) := SendCmd(miso, bus, cmd, arg, crc);
      CommandEnds(miso, b.wire, b.pos, cmd, arg, crc, r1)
  {
    var (r1, b) := SendCmd(miso, bus, cmd, arg, crc);
    SendCmdWire(miso, bus, cmd, arg, crc);
    var n: nat := b.pos - bus.pos - 6;
    assert b.wire == Pad(Clock(Then(bus.wire, Select), Frame(cmd, arg, crc)), n);
  }

  // ----- Agreement between the log and the wire -----

  /** The next byte sent starts a command: the card has just been selected. */
  predicate Armed(t: Trace)
  {
    t.Then? && t.last == Select
  }

  /** The start bytes of the commands on the wire: every byte sent right
      after a chip select. */
  function Commands(t: Trace): (r: seq<byte>)
  {
    match t
    case Start => []
    case Then(before, e) => Commands(before) + (if e.Send? && Armed(before) then [e.out] else [])
  }

  /** The start bytes the logged commands should have put on the wire. */
  function LogTokens(log: seq<Reply>): (ts: seq<byte>)
    ensures |ts| == |log|
  {
    seq(|log|, i requires 0 <= i < |log| => SetBit6(log[i].cmd))
  }

  /** The log and the wire agree: the logged commands are exactly the
      commands on the wire, in order, and no command is half-started. */
  predicate Consistent(bus: Bus)
  {
    Commands(bus.wire) == LogTokens(bus.log) && !Armed(bus.wire)
  }

  /** Sending bytes starts a command only if the card was just selected,
      and then with the first byte sent. */
  lemma {:induction false} CommandsClock(t: Trace, out: seq<byte>)
    requires |out| > 0
    ensures Commands(Clock(t, out)) == Commands(t) + (if Armed(t) then [out[0]] else [])
    ensures !Armed(Clock(t, out))
    decreases |out|
  {
    var init := out[..|out| - 1];
    var c := Clock(t, init);
    if init == [] {
      assert c == t;
      assert out[|out| - 1] == out[0];
    } else {
      CommandsClock(t, init);
      assert init[0] == out[0];
      assert Commands(c) + [] == Commands(c);
    }
  }

  /** Filler bytes start no command once a command has been framed. */
  lemma {:induction false} CommandsPad(t: Trace, n: nat)
    requires !Armed(t)
    ensures Commands(Pad(t, n)) == Commands(t)
    ensures !Armed(Pad(t, n))
  {
    if n > 0 {
      CommandsPad(t, n - 1);
      assert Commands(Pad(t, n - 1)) + [] == Commands(Pad(t, n - 1));
    }
  }

  /** `sd_send_cmd` puts exactly one command on the wire, the one it logs,
      whatever state the chip select was in before. */
  lemma SendCmdFramesOneCommand(miso: Stream, bus: Bus, cmd: byte, arg: u32, crc: byte)
    ensures var b := SendCmd(miso, bus, cmd, arg, crc).1;
      Commands(b.wire) == Commands(bus.wire) + [SetBit6(cmd)] && !Armed(b.wire)
  {
    var b := SendCmd(miso, bus, cmd, arg, crc).1;
    SendCmdWire(miso, bus, cmd, arg, crc);
    var t1 := Then(bus.wire, Select);
    assert Commands(t1) == Commands(bus.wire) + [];
    assert Commands(bus.wire) + [] == Commands(bus.wire);
    var f := Frame(cmd, arg, crc);
    CommandsClock(t1, f);
    CommandsPad(Clock(t1, f), b.pos - bus.pos - 6);
  }

  /** `sd_send_cmd` keeps the log and the wire in agreement. */
  lemma SendCmdKeepsConsistent(miso: Stream, bus: Bus, cmd: byte, arg: u32, crc: byte)
    requires Consistent(bus)
    ensures Consistent(SendCmd(miso, bus, cmd, arg, crc).1)
  {
    SendCmdFramesOneCommand(miso, bus, cmd, arg, crc);
    var b := SendCmd(miso, bus, cmd, arg, crc).1;
    assert LogTokens(b.log) == LogTokens(bus.log) + [SetBit6(cmd)];
  }

  /** Discarded filler exchanges issue no command. */
  lemma DummyKeepsConsistent(bus: Bus, n: nat)
    requires Consistent(bus)
    ensures Consistent(SendDummy(bus, n))
  {
    CommandsPad(bus.wire, n);
  }

  /** Releasing the card issues no command. */
  lemma ReleaseKeepsConsistent(miso: Stream, bus: Bus)
    requires Consistent(bus)
    ensures Consistent(Release(miso, bus))
  {
    var t1 := Then(bus.wire, Deselect);
    assert Commands(t1) == Commands(bus.wire) + [];
    assert Commands(Then(t1, Send(FILLER))) == Commands(t1) + [];
    assert Commands(bus.wire) + [] == Commands(bus.wire);
  }

  /** Chip select high, then filler bytes, issues no command. */
  lemma DeselectKeepsConsistent(bus: Bus, n: nat)
    requires Consistent(bus)
    ensures Consistent(SendDummy(ChipDeselect(bus), n))
  {
    var t1 := Then(bus.wire, Deselect);
    assert Commands(t1) == Commands(bus.wire) + [];
    assert Commands(bus.wire) + [] == Commands(bus.wire);
    CommandsPad(t1, n);
  }

  // ----- Initialisation -----

  /** A run of CMD55/ACMD41 rounds in which every ACMD41 but the last was
      refused. The CMD55 responses are not looked at. */
  predicate AppInitRounds(rs: seq<Reply>)
    decreases |rs|
  {
    && 2 <= |rs|
    && rs[0].cmd == CMD_APP && rs[0].arg == 0 && rs[0].crc == CRC_APP
    && rs[1].cmd == CMD_APP_INIT && rs[1].arg == HCS_ARG && rs[1].crc == CRC_APP_INIT
    && (|rs| > 2 ==> rs[1].r1 != 0 && AppInitRounds(rs[2..]))
  }

  /** A run is made of whole rounds. */
  lemma {:induction false} RoundsEven(rs: seq<Reply>)
    requires AppInitRounds(rs)
    ensures |rs| % 2 == 0
    decreases |rs|
  {
    if |rs| > 2 {
      RoundsEven(rs[2..]);
    }
  }

  /** The CMD55/ACMD41 loop of `sd_init`, with `tries` rounds remaining:
      it stops at the first ACMD41 answered 0x00 or when the budget is
      spent, and appends one to `tries` rounds to the log. */
  function AppInitLoop(miso: Stream, bus: Bus, tries: nat): (res: (bool, Bus))
    requires 1 <= tries
    ensures |bus.log| + 2 <= |res.1.log| <= |bus.log| + 2 * tries
    decreases tries
  {
    var b1 := SendCmd(miso, bus, CMD_APP, 0, CRC_APP).1;
    var (r, b2) := SendCmd(miso, b1, CMD_APP_INIT, HCS_ARG, CRC_APP_INIT);
    if r == 0 || tries == 1 then (r == 0, b2)
    else AppInitLoop(miso, b2, tries - 1)
  }

  /** The loop reports success exactly when the last ACMD41 was answered
      0x00, and fails only after spending the whole budget. */
  lemma AppInitLoopOutcome(miso: Stream, bus: Bus, tries: nat)
    requires 1 <= tries
    ensures var (ready, b) := AppInitLoop(miso, bus, tries);
      && (ready <==> b.log[|b.log| - 1].r1 == 0)
      && (!ready ==> |b.log| == |bus.log| + 2 * tries)
  {
    AppInitLoopReady(miso, bus, tries);
    AppInitLoopSpends(miso, bus, tries);
  }

  /** The loop reports success exactly when the last ACMD41 was answered
      0x00. */
  lemma {:induction false} AppInitLoopReady(miso: Stream, bus: Bus, tries: nat)
    requires 1 <= tries
    ensures var (ready, b) := AppInitLoop(miso, bus, tries);
      ready <==> b.log[|b.log| - 1].r1 == 0
    decreases tries
  {
    var b1 := SendCmd(miso, bus, CMD_APP, 0, CRC_APP).1;
    var (r, b2) := SendCmd(miso, b1, CMD_APP_INIT, HCS_ARG, CRC_APP_INIT);
    if r != 0 && tries > 1 {
      assert AppInitLoop(miso, bus, tries) == AppInitLoop(miso, b2, tries - 1);
      AppInitLoopReady(miso, b2, tries - 1);
    } else {
      assert AppInitLoop(miso, bus, tries) == (r == 0, b2);
      assert b2.log == b1.log + [Reply(CMD_APP_INIT, HCS_ARG, CRC_APP_INIT, r)];
    }
  }

  /** A failed loop has spent all `tries` rounds. */
  lemma {:induction false} AppInitLoopSpends(miso: Stream, bus: Bus, tries: nat)
    requires 1 <= tries
    ensures var (ready, b) := AppInitLoop(miso, bus, tries);
      !ready ==> |b.log| == |bus.log| + 2 * tries
    decreases tries
  {
    var b1 := SendCmd(miso, bus, CMD_APP, 0, CRC_APP).1;
    var (r, b2) := SendCmd(miso, b1, CMD_APP_INIT, HCS_ARG, CRC_APP_INIT);
    if r != 0 && tries > 1 {
      assert AppInitLoop(miso, bus, tries) == AppInitLoop(miso, b2, tries - 1);
      AppInitLoopSpends(miso, b2, tries - 1);
    }
  }

  /** One CMD55/ACMD41 round appends the two commands and their responses
      to the log. */
  lemma AppRoundLog(miso: Stream, bus: Bus)
    ensures var (r0, b1) := SendCmd(miso, bus, CMD_APP, 0, CRC_APP);
      var (r, b2) := SendCmd(miso, b1, CMD_APP_INIT, HCS_ARG, CRC_APP_INIT);
      b2.log == bus.log + [Reply(CMD_APP, 0, CRC_APP, r0), Reply(CMD_APP_INIT, HCS_ARG, CRC_APP_INIT, r)]
  {
  }

  /** The loop keeps the earlier log. */
  lemma {:induction false} AppInitLoopKeepsLog(miso: Stream, bus: Bus, tries: nat)
    requires 1 <= tries
    ensures bus.log <= AppInitLoop(miso, bus, tries).1.log
    decreases tries
  {
    var b1 := SendCmd(miso, bus, CMD_APP, 0, CRC_APP).1;
    var (r, b2) := SendCmd(miso, b1, CMD_APP_INIT, HCS_ARG, CRC_APP_INIT);
    AppRoundLog(miso, bus);
    if r != 0 && tries > 1 {
      AppInitLoopKeepsLog(miso, b2, tries - 1);
    }
  }

  /** A refused round in front of a run is a run. */
  lemma RoundsCons(prev: seq<Reply>, pair: seq<Reply>, full: seq<Reply>)
    requires |pair| == 2 && AppInitRounds(pair) && pair[1].r1 != 0
    requires prev + pair <= full
    requires AppInitRounds(full[|prev| + 2..])
    ensures AppInitRounds(full[|prev|..])
  {
    assert full[|prev|..][2..] == full[|prev| + 2..];
    assert full[|prev|..][..2] == pair;
  }

  /** What the loop appends to the log is a run of CMD55/ACMD41 rounds,
      all but the last refused. */
  lemma {:induction false} AppInitLoopRounds(miso: Stream, bus: Bus, tries: nat)
    requires 1 <= tries
    ensures var b := AppInitLoop(miso, bus, tries).1;
      AppInitRounds(b.log[|bus.log|..])
    decreases tries
  {
    var (r0, b1) := SendCmd(miso, bus, CMD_APP, 0, CRC_APP);
    var (r, b2) := SendCmd(miso, b1, CMD_APP_INIT, HCS_ARG, CRC_APP_INIT);
    var pair := [Reply(CMD_APP, 0, CRC_APP, r0), Reply(CMD_APP_INIT, HCS_ARG, CRC_APP_INIT, r)];
    AppRoundLog(miso, bus);
    DropConcat(bus.log, pair);
    if r != 0 && tries > 1 {
      var b := AppInitLoop(miso, b2, tries - 1).1;
      AppInitLoopRounds(miso, b2, tries - 1);
      AppInitLoopKeepsLog(miso, b2, tries - 1);
      RoundsCons(bus.log, pair, b.log);
    }
  }

  /** The ACMD41 loop only appends to the wire, starting at once with the
      chip select and the frame of the first CMD55, and leaves the card
      selected. */
  lemma {:induction false} AppInitLoopWire(miso: Stream, bus: Bus, tries: nat)
    requires 1 <= tries
    ensures var b := AppInitLoop(miso, bus, tries).1;
      && Extends(bus.wire, b.wire) && Selected(b.wire)
      && Extends(Clock(Then(bus.wire, Select), Frame(CMD_APP, 0, CRC_APP)), b.wire)
    decreases tries
  {
    var first := Clock(Then(bus.wire, Select), Frame(CMD_APP, 0, CRC_APP));
    var b1 := SendCmd(miso, bus, CMD_APP, 0, CRC_APP).1;
    var (r, b2) := SendCmd(miso, b1, CMD_APP_INIT, HCS_ARG, CRC_APP_INIT);
    SendCmdExtends(miso, bus, CMD_APP, 0, CRC_APP);
    SendCmdExtends(miso, b1, CMD_APP_INIT, HCS_ARG, CRC_APP_INIT);
    ExtendsTrans(bus.wire, b1.wire, b2.wire);
    ExtendsTrans(first, b1.wire, b2.wire);
    if r != 0 && tries > 1 {
      var b := AppInitLoop(miso, b2, tries - 1).1;
      AppInitLoopWire(miso, b2, tries - 1);
      ExtendsTrans(bus.wire, b2.wire, b.wire);
      ExtendsTrans(first, b2.wire, b.wire);
    }
  }

  /** The ACMD41 loop returns the bus its last ACMD41 left. */
  lemma {:induction false} AppInitLoopLast(miso: Stream, bus: Bus, tries: nat)
    requires 1 <= tries
    ensures exists b1: Bus ::
      AppInitLoop(miso, bus, tries).1 == SendCmd(miso, b1, CMD_APP_INIT, HCS_ARG, CRC_APP_INIT).1
    decreases tries
  {
    var b1 := SendCmd(miso, bus, CMD_APP, 0, CRC_APP).1;
    var (r, b2) := SendCmd(miso, b1, CMD_APP_INIT, HCS_ARG, CRC_APP_INIT);
    if r != 0 && tries > 1 {
      assert AppInitLoop(miso, bus, tries) == AppInitLoop(miso, b2, tries - 1);
      AppInitLoopLast(miso, b2, tries - 1);
    } else {
      assert AppInitLoop(miso, bus, tries).1 == SendCmd(miso, b1, CMD_APP_INIT, HCS_ARG, CRC_APP_INIT).1;
    }
  }

  /** The ACMD41 loop returns right after its last ACMD41: the wire ends
      with that command and the R1 poll that produced its logged reply. */
  lemma AppInitLoopEnds(miso: Stream, bus: Bus, tries: nat)
    requires 1 <= tries
    ensures var b := AppInitLoop(miso, bus, tries).1;
      CommandEnds(miso, b.wire, b.pos, CMD_APP_INIT, HCS_ARG, CRC_APP_INIT, b.log[|b.log| - 1].r1)
  {
    AppInitLoopLast(miso, bus, tries);
    var b1: Bus :| AppInitLoop(miso, bus, tries).1 == SendCmd(miso, b1, CMD_APP_INIT, HCS_ARG, CRC_APP_INIT).1;
    AppInitEnds(miso, b1);
  }

  /** An ACMD41 leaves the wire ending with itself and the poll that
      produced the reply it logged. */
  lemma AppInitEnds(miso: Stream, bus: Bus)
    ensures var b := SendCmd(miso, bus, CMD_APP_INIT, HCS_ARG, CRC_APP_INIT).1;
      CommandEnds(miso, b.wire, b.pos, CMD_APP_INIT, HCS_ARG, CRC_APP_INIT, b.log[|b.log| - 1].r1)
  {
    SendCmdEnds(miso, bus, CMD_APP_INIT, HCS_ARG, CRC_APP_INIT);
  }

  /** The ACMD41 loop keeps the log and the wire in agreement. */
  lemma {:induction false} AppInitLoopKeepsConsistent(miso: Stream, bus: Bus, tries: nat)
    requires 1 <= tries && Consistent(bus)
    ensures Consistent(AppInitLoop(miso, bus, tries).1)
    decreases tries
  {
    var b1 := SendCmd(miso, bus, CMD_APP, 0, CRC_APP).1;
    SendCmdKeepsConsistent(miso, bus, CMD_APP, 0, CRC_APP);
    var (r, b2) := SendCmd(miso, b1, CMD_APP_INIT, HCS_ARG, CRC_APP_INIT);
    SendCmdKeepsConsistent(miso, b1, CMD_APP_INIT, HCS_ARG, CRC_APP_INIT);
    if r != 0 && tries > 1 {
      AppInitLoopKeepsConsistent(miso, b2, tries - 1);
    }
  }

  /** The ACMD41 loop of `sd_init` as written: a 16-bit counter from 0xFFFF,
      decremented after every refused round, and a failure when it reaches
      zero. */
  method AppInitSteps(miso: Stream, bus: Bus) returns (ready: bool, b: Bus)
    ensures (ready, b) == AppInitLoop(miso, bus, INIT_TRIES)
  {
    var timeout := 0xFFFF;
    b := bus;
    while true
      invariant 1 <= timeout <= INIT_TRIES
      invariant AppInitLoop(miso, b, timeout) == AppInitLoop(miso, bus, INIT_TRIES)
      decreases timeout
    {
      var app := SendCmd(miso, b, CMD_APP, 0, CRC_APP);
      var acmd := SendCmd(miso, app.1, CMD_APP_INIT, HCS_ARG, CRC_APP_INIT);
      b := acmd.1;
      if acmd.0 == 0 {
        break;
      }
      timeout := timeout - 1;
      if timeout == 0 {
        break;
      }
    }
    ready := timeout != 0;
  }

  /** The command transcript of a successful activation: at most 65535
      CMD55/ACMD41 rounds of which only the last ACMD41 was answered 0x00,
      then CMD58 answered 0x00. */
  predicate ActivateAccepted(rs: seq<Reply>)
  {
    && |rs| >= 3
    && AppInitRounds(rs[..|rs| - 1]) && |rs| - 1 <= 2 * INIT_TRIES
    && rs[|rs| - 2].r1 == 0x00
    && rs[|rs| - 1] == Reply(CMD_READ_OCR, 0, CRC_READ_OCR, 0x00)
  }

  /** The command transcripts of a failed activation: 65535 rounds all
      refused, or an accepted ACMD41 followed by a CMD58 not answered
      0x00. */
  predicate ActivateRejected(rs: seq<Reply>)
  {
    || (|rs| == 2 * INIT_TRIES && AppInitRounds(rs) && rs[|rs| - 1].r1 != 0x00)
    || (&& |rs| >= 3
        && AppInitRounds(rs[..|rs| - 1]) && |rs| - 1 <= 2 * INIT_TRIES
        && rs[|rs| - 2].r1 == 0x00
        && rs[|rs| - 1].cmd == CMD_READ_OCR && rs[|rs| - 1].arg == 0
        && rs[|rs| - 1].crc == CRC_READ_OCR && rs[|rs| - 1].r1 != 0x00)
  }

  /** The command transcript of a successful power-up: CMD0 and CMD8
      answered 0x01, then a successful activation. */
  predicate InitAccepted(rs: seq<Reply>)
  {
    && |rs| >= 2
    && rs[0] == Reply(CMD_GO_IDLE, 0, CRC_GO_IDLE, 0x01)
    && rs[1] == Reply(CMD_SEND_IF_COND, IF_COND_ARG, CRC_SEND_IF_COND, 0x01)
    && ActivateAccepted(rs[2..])
  }

  /** The command transcripts of a failed power-up: the sequence stops at
      the first step whose response is not the expected one, and no later
      command is issued. */
  predicate InitRejected(rs: seq<Reply>)
  {
    || (|rs| == 1 && rs[0].cmd == CMD_GO_IDLE && rs[0].arg == 0 && rs[0].crc == CRC_GO_IDLE && rs[0].r1 != 0x01)
    || (&& |rs| == 2
        && rs[0] == Reply(CMD_GO_IDLE, 0, CRC_GO_IDLE, 0x01)
        && rs[1].cmd == CMD_SEND_IF_COND && rs[1].arg == IF_COND_ARG
        && rs[1].crc == CRC_SEND_IF_COND && rs[1].r1 != 0x01)
    || (&& |rs| >= 2
        && rs[0] == Reply(CMD_GO_IDLE, 0, CRC_GO_IDLE, 0x01)
        && rs[1] == Reply(CMD_SEND_IF_COND, IF_COND_ARG, CRC_SEND_IF_COND, 0x01)
        && ActivateRejected(rs[2..]))
  }

  /** No activation transcript is both a success and a failure. */
  lemma ActivateOutcomeExclusive(rs: seq<Reply>)
    ensures !(ActivateAccepted(rs) && ActivateRejected(rs))
  {
    if ActivateAccepted(rs) {
      RoundsEven(rs[..|rs| - 1]);
    }
  }

  /** No transcript is both a success and a failure, so the result of
      `sd_init` is decided by the responses alone. */
  lemma InitOutcomeExclusive(rs: seq<Reply>)
    ensures !(InitAccepted(rs) && InitRejected(rs))
  {
    if |rs| >= 2 {
      ActivateOutcomeExclusive(rs[2..]);
    }
  }

  /** The second half of `sd_init`, once CMD8 has been accepted: the 4-byte
      CMD8 echo dropped, the ACMD41 loop, CMD58 with its 4-byte OCR
      dropped, and the release of the card. */
  function Activate(miso: Stream, bus: Bus): (res: (byte, Bus))
    ensures res.0 == 0 || res.0 == 1
  {
    var (ready, b4) := AppInitLoop(miso, SendDummy(bus, 4), INIT_TRIES);
    if !ready then (0, b4)
    else
      var (r58, b5) := SendCmd(miso, b4, CMD_READ_OCR, 0, CRC_READ_OCR);
      if r58 != 0x00 then (0, b5)
      else (1, Release(miso, SendDummy(b5, 4)))
  }

  /** `sd_init`: 80 clocks with the card deselected, then CMD0, CMD8 and
      the activation. Returns 1 on success, 0 at the first failed step,
      which returns at once and leaves the card selected. */
  function Init(miso: Stream, bus: Bus): (res: (byte, Bus))
    ensures res.0 == 0 || res.0 == 1
  {
    var b0 := SendDummy(ChipDeselect(bus), 10);
    var (r0, b1) := SendCmd(miso, b0, CMD_GO_IDLE, 0, CRC_GO_IDLE);
    if r0 != 0x01 then (0, b1)
    else
      var (r8, b2) := SendCmd(miso, b1, CMD_SEND_IF_COND, IF_COND_ARG, CRC_SEND_IF_COND);
      if r8 != 0x01 then (0, b2)
      else Activate(miso, b2)
  }

  /** The activation returns 1 exactly for an accepted transcript and 0
      exactly for a rejected one; the transcript is appended to the log. */
  lemma ActivateTranscript(miso: Stream, bus: Bus)
    ensures var (r, b) := Activate(miso, bus);
      && bus.log <= b.log
      && (r == 1 <==> ActivateAccepted(b.log[|bus.log|..]))
      && (r == 0 <==> ActivateRejected(b.log[|bus.log|..]))
  {
    var (r, b) := Activate(miso, bus);
    var (ready, b4) := AppInitLoop(miso, SendDummy(bus, 4), INIT_TRIES);
    ActivateLoop(miso, bus);
    if ready {
      var (r58, b5) := SendCmd(miso, b4, CMD_READ_OCR, 0, CRC_READ_OCR);
      ActivateAfterLoop(miso, bus.log, b4);
      assert b.log == b5.log && (r == 1 <==> r58 == 0);
    } else {
      assert (r, b) == (0, b4);
      ActivateTimedOut(b4.log[|bus.log|..]);
    }
  }

  /** What the ACMD41 loop of the activation leaves in the log: whole
      rounds within the budget, the last of them accepted exactly when the
      loop reports the card ready, and the full budget otherwise. */
  lemma ActivateLoop(miso: Stream, bus: Bus)
    ensures var (ready, b4) := AppInitLoop(miso, SendDummy(bus, 4), INIT_TRIES);
      && bus.log <= b4.log
      && AppInitRounds(b4.log[|bus.log|..])
      && |b4.log| - |bus.log| <= 2 * INIT_TRIES
      && (ready <==> b4.log[|b4.log| - 1].r1 == 0)
      && (!ready ==> |b4.log| - |bus.log| == 2 * INIT_TRIES)
  {
    var b3 := SendDummy(bus, 4);
    AppInitLoopKeepsLog(miso, b3, INIT_TRIES);
    AppInitLoopOutcome(miso, b3, INIT_TRIES);
    AppInitLoopRounds(miso, b3, INIT_TRIES);
  }

  /** A full budget of refused rounds is a failed activation. */
  lemma ActivateTimedOut(rs: seq<Reply>)
    requires |rs| == 2 * INIT_TRIES && AppInitRounds(rs) && rs[|rs| - 1].r1 != 0x00
    ensures ActivateRejected(rs) && !ActivateAccepted(rs)
  {
    ActivateOutcomeExclusive(rs);
  }

  /** Once the ACMD41 loop has appended an accepting run to the log, CMD58
      decides the activation. */
  lemma ActivateAfterLoop(miso: Stream, prev: seq<Reply>, b4: Bus)
    requires prev <= b4.log
    requires AppInitRounds(b4.log[|prev|..]) && |b4.log| - |prev| <= 2 * INIT_TRIES
    requires b4.log[|b4.log| - 1].r1 == 0
    ensures var (r58, b5) := SendCmd(miso, b4, CMD_READ_OCR, 0, CRC_READ_OCR);
      && prev <= b5.log
      && (r58 == 0 <==> ActivateAccepted(b5.log[|prev|..]))
      && (r58 != 0 <==> ActivateRejected(b5.log[|prev|..]))
  {
    var (r58, b5) := SendCmd(miso, b4, CMD_READ_OCR, 0, CRC_READ_OCR);
    DropSnoc(prev, b4.log, Reply(CMD_READ_OCR, 0, CRC_READ_OCR, r58));
    ActivateOutcomeExclusive(b5.log[|prev|..]);
  }

  /** `sd_init` returns 1 exactly for an accepted command transcript and 0
      exactly for a rejected one; the transcript is appended to the log. */
  lemma InitTranscript(miso: Stream, bus: Bus)
    ensures var (r, b) := Init(miso, bus);
      && bus.log <= b.log
      && (r == 1 <==> InitAccepted(b.log[|bus.log|..]))
      && (r == 0 <==> InitRejected(b.log[|bus.log|..]))
  {
    var b0 := SendDummy(ChipDeselect(bus), 10);
    var (r0, b1) := SendCmd(miso, b0, CMD_GO_IDLE, 0, CRC_GO_IDLE);
    if r0 != 0x01 {
      InitStopsAtGoIdle(miso, bus);
    } else if SendCmd(miso, b1, CMD_SEND_IF_COND, IF_COND_ARG, CRC_SEND_IF_COND).0 != 0x01 {
      InitStopsAtIfCond(miso, bus);
    } else {
      InitActivates(miso, bus);
    }
  }

  /** `sd_init` when CMD0 is refused: one command, result 0. */
  lemma InitStopsAtGoIdle(miso: Stream, bus: Bus)
    requires SendCmd(miso, SendDummy(ChipDeselect(bus), 10), CMD_GO_IDLE, 0, CRC_GO_IDLE).0 != 0x01
    ensures var (r, b) := Init(miso, bus);
      && bus.log <= b.log
      && r == 0 && InitRejected(b.log[|bus.log|..]) && !InitAccepted(b.log[|bus.log|..])
  {
    var b0 := SendDummy(ChipDeselect(bus), 10);
    var (r0, b1) := SendCmd(miso, b0, CMD_GO_IDLE, 0, CRC_GO_IDLE);
    assert Init(miso, bus) == (0, b1);
    DropConcat(bus.log, [Reply(CMD_GO_IDLE, 0, CRC_GO_IDLE, r0)]);
  }

  /** `sd_init` when CMD0 is accepted and CMD8 refused: two commands,
      result 0. */
  lemma InitStopsAtIfCond(miso: Stream, bus: Bus)
    requires var b1 := SendCmd(miso, SendDummy(ChipDeselect(bus), 10), CMD_GO_IDLE, 0, CRC_GO_IDLE);
      && b1.0 == 0x01
      && SendCmd(miso, b1.1, CMD_SEND_IF_COND, IF_COND_ARG, CRC_SEND_IF_COND).0 != 0x01
    ensures var (r, b) := Init(miso, bus);
      && bus.log <= b.log
      && r == 0 && InitRejected(b.log[|bus.log|..]) && !InitAccepted(b.log[|bus.log|..])
  {
    var b0 := SendDummy(ChipDeselect(bus), 10);
    var b1 := SendCmd(miso, b0, CMD_GO_IDLE, 0, CRC_GO_IDLE).1;
    var (r8, b2) := SendCmd(miso, b1, CMD_SEND_IF_COND, IF_COND_ARG, CRC_SEND_IF_COND);
    assert Init(miso, bus) == (0, b2);
    var head := [Reply(CMD_GO_IDLE, 0, CRC_GO_IDLE, 1), Reply(CMD_SEND_IF_COND, IF_COND_ARG, CRC_SEND_IF_COND, r8)];
    assert b2.log == bus.log + head;
    DropConcat(bus.log, head);
  }

  /** `sd_init` once CMD0 and CMD8 are both accepted: the activation
      decides. */
  lemma InitActivates(miso: Stream, bus: Bus)
    requires var b1 := SendCmd(miso, SendDummy(ChipDeselect(bus), 10), CMD_GO_IDLE, 0, CRC_GO_IDLE);
      && b1.0 == 0x01
      && SendCmd(miso, b1.1, CMD_SEND_IF_COND, IF_COND_ARG, CRC_SEND_IF_COND).0 == 0x01
    ensures var (r, b) := Init(miso, bus);
      && bus.log <= b.log
      && (r == 1 <==> InitAccepted(b.log[|bus.log|..]))
      && (r == 0 <==> InitRejected(b.log[|bus.log|..]))
  {
    var b0 := SendDummy(ChipDeselect(bus), 10);
    var b1 := SendCmd(miso, b0, CMD_GO_IDLE, 0, CRC_GO_IDLE).1;
    var b2 := SendCmd(miso, b1, CMD_SEND_IF_COND, IF_COND_ARG, CRC_SEND_IF_COND).1;
    var (r, b) := Activate(miso, b2);
    assert Init(miso, bus) == (r, b);
    assert b2.log == bus.log + [Reply(CMD_GO_IDLE, 0, CRC_GO_IDLE, 1)]
                             + [Reply(CMD_SEND_IF_COND, IF_COND_ARG, CRC_SEND_IF_COND, 1)];
    ActivateTranscript(miso, b2);
    InitAfterHead(bus.log, b2.log, b.log);
  }

  /** A log that continues past an accepted CMD0 and CMD8 holds an
      accepted (rejected) power-up transcript exactly when what follows
      them is an accepted (rejected) activation. */
  lemma InitAfterHead(prev: seq<Reply>, mid: seq<Reply>, full: seq<Reply>)
    requires mid == prev + [Reply(CMD_GO_IDLE, 0, CRC_GO_IDLE, 1)]
                         + [Reply(CMD_SEND_IF_COND, IF_COND_ARG, CRC_SEND_IF_COND, 1)]
    requires mid <= full
    ensures prev <= full
    ensures InitAccepted(full[|prev|..]) <==> ActivateAccepted(full[|mid|..])
    ensures InitRejected(full[|prev|..]) <==> ActivateRejected(full[|mid|..])
  {
    var head := [Reply(CMD_GO_IDLE, 0, CRC_GO_IDLE, 1), Reply(CMD_SEND_IF_COND, IF_COND_ARG, CRC_SEND_IF_COND, 1)];
    assert mid == prev + head;
    DropSplit(prev, head, full);
    InitAfterProbe(full[|prev|..]);
    assert full[|prev|..][2..] == full[|mid|..];
  }

  /** Once CMD0 and CMD8 have both answered 0x01, the power-up transcript is
      decided by the activation that follows them. */
  lemma InitAfterProbe(rs: seq<Reply>)
    requires |rs| >= 2
    requires rs[0] == Reply(CMD_GO_IDLE, 0, CRC_GO_IDLE, 0x01)
    requires rs[1] == Reply(CMD_SEND_IF_COND, IF_COND_ARG, CRC_SEND_IF_COND, 0x01)
    ensures InitAccepted(rs) <==> ActivateAccepted(rs[2..])
    ensures InitRejected(rs) <==> ActivateRejected(rs[2..])
  {
  }

  /** The wire of `b` ends with the command `cmd` answered with something
      other than `expected`, and nothing after its R1 poll: the return of
      `sd_init` at a failed step. */
  ghost predicate StoppedAt(miso: Stream, b: Bus, cmd: byte, arg: u32, crc: byte, expected: byte)
  {
    exists r1: byte :: r1 != expected && CommandEnds(miso, b.wire, b.pos, cmd, arg, crc, r1)
  }

  /** A failed activation returns right after a refused ACMD41 or a
      refused CMD58. */
  ghost predicate ActivateStopped(miso: Stream, b: Bus)
  {
    || StoppedAt(miso, b, CMD_APP_INIT, HCS_ARG, CRC_APP_INIT, 0x00)
    || StoppedAt(miso, b, CMD_READ_OCR, 0, CRC_READ_OCR, 0x00)
  }

  /** A failed `sd_init` returns right after a refused CMD0, a refused
      CMD8, or a failed activation. */
  ghost predicate InitStopped(miso: Stream, b: Bus)
  {
    || StoppedAt(miso, b, CMD_GO_IDLE, 0, CRC_GO_IDLE, 0x01)
    || StoppedAt(miso, b, CMD_SEND_IF_COND, IF_COND_ARG, CRC_SEND_IF_COND, 0x01)
    || ActivateStopped(miso, b)
  }

  /** The activation only appends to the wire. It first drops exactly the
      four bytes of the CMD8 echo: four filler exchanges, then the chip
      select of the first CMD55. It returns 1 exactly when it ends with the
      card released, and then the wire ends with a CMD58 answered 0x00, the
      four dropped OCR bytes, chip select high and one filler byte. A failed
      activation returns right after the refused ACMD41 or CMD58, with the
      card still selected and nothing sent after the R1 poll. */
  lemma ActivateWire(miso: Stream, bus: Bus)
    ensures var (r, b) := Activate(miso, bus);
      && Extends(bus.wire, b.wire)
      && Extends(Then(Pad(bus.wire, 4), Select), b.wire)
      && (r == 1 <==> !Selected(b.wire))
      && (r == 1 ==> ReleasedAfterOcr(miso, b))
      && (r == 0 ==> ActivateStopped(miso, b))
  {
    var (r, b) := Activate(miso, bus);
    var b3 := SendDummy(bus, 4);
    var (ready, b4) := AppInitLoop(miso, b3, INIT_TRIES);
    ActivateLoopWire(miso, bus);
    if !ready {
      AppInitLoopStops(miso, b3, INIT_TRIES);
      return;
    }
    var (r58, b5) := SendCmd(miso, b4, CMD_READ_OCR, 0, CRC_READ_OCR);
    SendCmdExtends(miso, b4, CMD_READ_OCR, 0, CRC_READ_OCR);
    ExtendsTrans(bus.wire, b4.wire, b5.wire);
    ExtendsTrans(Then(b3.wire, Select), b4.wire, b5.wire);
    if r58 != 0x00 {
      SendCmdEnds(miso, b4, CMD_READ_OCR, 0, CRC_READ_OCR);
      assert StoppedAt(miso, b5, CMD_READ_OCR, 0, CRC_READ_OCR, 0x00);
      return;
    }
    var b6 := SendDummy(b5, 4);
    PadExtends(b5.wire, 4);
    assert Extends(b6.wire, b.wire.before.before);
    ExtendsTrans(b5.wire, b6.wire, b.wire);
    ExtendsTrans(bus.wire, b5.wire, b.wire);
    ExtendsTrans(Then(b3.wire, Select), b5.wire, b.wire);
    SendCmdEnds(miso, b4, CMD_READ_OCR, 0, CRC_READ_OCR);
    assert b.wire == Then(Then(Pad(b5.wire, 4), Deselect), Send(FILLER)) && b.pos == b5.pos + 5;
  }

  /** The successful end of `sd_init` on the wire: CMD58 answered 0x00,
      its four OCR bytes dropped, then chip select high and one filler. */
  ghost predicate ReleasedAfterOcr(miso: Stream, b: Bus)
  {
    exists w: Trace, q: nat ::
      && CommandEnds(miso, w, q, CMD_READ_OCR, 0, CRC_READ_OCR, 0x00)
      && b.pos == q + 4 + 1
      && b.wire == Then(Then(Pad(w, 4), Deselect), Send(FILLER))
  }

  /** An ACMD41 loop that runs out of rounds leaves the wire ending with
      its last, refused ACMD41. */
  lemma AppInitLoopStops(miso: Stream, bus: Bus, tries: nat)
    requires 1 <= tries && !AppInitLoop(miso, bus, tries).0
    ensures StoppedAt(miso, AppInitLoop(miso, bus, tries).1, CMD_APP_INIT, HCS_ARG, CRC_APP_INIT, 0x00)
  {
    var b := AppInitLoop(miso, bus, tries).1;
    AppInitLoopReady(miso, bus, tries);
    AppInitLoopEnds(miso, bus, tries);
    var r1 := b.log[|b.log| - 1].r1;
    assert r1 != 0x00 && CommandEnds(miso, b.wire, b.pos, CMD_APP_INIT, HCS_ARG, CRC_APP_INIT, r1);
  }

  /** The wire up to the end of the ACMD41 loop: the echo's four filler
      exchanges, then the loop, which starts with a chip select. */
  lemma ActivateLoopWire(miso: Stream, bus: Bus)
    ensures var b4 := AppInitLoop(miso, SendDummy(bus, 4), INIT_TRIES).1;
      && Extends(bus.wire, b4.wire)
      && Extends(Then(Pad(bus.wire, 4), Select), b4.wire)
      && Selected(b4.wire)
  {
    var b3 := SendDummy(bus, 4);
    var b4 := AppInitLoop(miso, b3, INIT_TRIES).1;
    var first := Clock(Then(b3.wire, Select), Frame(CMD_APP, 0, CRC_APP));
    PadExtends(bus.wire, 4);
    AppInitLoopWire(miso, b3, INIT_TRIES);
    ExtendsTrans(bus.wire, b3.wire, b4.wire);
    ClockExtends(Then(b3.wire, Select), Frame(CMD_APP, 0, CRC_APP));
    ExtendsTrans(Then(b3.wire, Select), first, b4.wire);
  }

  /** On the wire, `sd_init` starts with chip select high, exactly ten
      filler bytes (80 clocks), a chip select and the CMD0 frame with its
      checksum 0x95. It returns 1 exactly when it ends with the card
      released after a CMD58 answered 0x00 and its four OCR bytes; then
      the activation started at the bus right after a CMD8 answered 0x01,
      with exactly four echo bytes before the next chip select. It returns
      0 right after the R1 poll of the failing command, with the card still
      selected. */
  lemma InitWire(miso: Stream, bus: Bus)
    ensures var (r, b) := Init(miso, bus);
      && Extends(Clock(Then(Pad(Then(bus.wire, Deselect), 10), Select), Frame(CMD_GO_IDLE, 0, CRC_GO_IDLE)), b.wire)
      && (r == 1 <==> !Selected(b.wire))
      && (r == 1 ==> ReleasedAfterOcr(miso, b))
      && (r == 1 ==> exists b2: Bus ::
            && CommandEnds(miso, b2.wire, b2.pos, CMD_SEND_IF_COND, IF_COND_ARG, CRC_SEND_IF_COND, 0x01)
            && Extends(Then(Pad(b2.wire, 4), Select), b.wire)
            && Activate(miso, b2) == (r, b))
      && (r == 0 ==> InitStopped(miso, b))
  {
    var b0 := SendDummy(ChipDeselect(bus), 10);
    var go := Clock(Then(b0.wire, Select), Frame(CMD_GO_IDLE, 0, CRC_GO_IDLE));
    var (r0, b1) := SendCmd(miso, b0, CMD_GO_IDLE, 0, CRC_GO_IDLE);
    SendCmdExtends(miso, b0, CMD_GO_IDLE, 0, CRC_GO_IDLE);
    if r0 != 0x01 {
      SendCmdEnds(miso, b0, CMD_GO_IDLE, 0, CRC_GO_IDLE);
      assert StoppedAt(miso, b1, CMD_GO_IDLE, 0, CRC_GO_IDLE, 0x01);
      return;
    }
    var (r8, b2) := SendCmd(miso, b1, CMD_SEND_IF_COND, IF_COND_ARG, CRC_SEND_IF_COND);
    SendCmdExtends(miso, b1, CMD_SEND_IF_COND, IF_COND_ARG, CRC_SEND_IF_COND);
    ExtendsTrans(go, b1.wire, b2.wire);
    SendCmdEnds(miso, b1, CMD_SEND_IF_COND, IF_COND_ARG, CRC_SEND_IF_COND);
    if r8 != 0x01 {
      assert StoppedAt(miso, b2, CMD_SEND_IF_COND, IF_COND_ARG, CRC_SEND_IF_COND, 0x01);
      return;
    }
    var b := Activate(miso, b2).1;
    ActivateWire(miso, b2);
    ExtendsTrans(go, b2.wire, b.wire);
    assert CommandEnds(miso, b2.wire, b2.pos, CMD_SEND_IF_COND, IF_COND_ARG, CRC_SEND_IF_COND, 0x01);
  }

  /** The activation keeps the log and the wire in agreement. */
  lemma ActivateKeepsConsistent(miso: Stream, bus: Bus)
    requires Consistent(bus)
    ensures Consistent(Activate(miso, bus).1)
  {
    var b3 := SendDummy(bus, 4);
    DummyKeepsConsistent(bus, 4);
    var (ready, b4) := AppInitLoop(miso, b3, INIT_TRIES);
    AppInitLoopKeepsConsistent(miso, b3, INIT_TRIES);
    if !ready { return; }
    var (r58, b5) := SendCmd(miso, b4, CMD_READ_OCR, 0, CRC_READ_OCR);
    SendCmdKeepsConsistent(miso, b4, CMD_READ_OCR, 0, CRC_READ_OCR);
    if r58 != 0x00 { return; }
    var b6 := SendDummy(b5, 4);
    DummyKeepsConsistent(b5, 4);
    ReleaseKeepsConsistent(miso, b6);
  }

  /** `sd_init` keeps the log and the wire in agreement. */
  lemma InitKeepsConsistent(miso: Stream, bus: Bus)
    requires Consistent(bus)
    ensures Consistent(Init(miso, bus).1)
  {
    var b0 := SendDummy(ChipDeselect(bus), 10);
    DeselectKeepsConsistent(bus, 10);
    var (r0, b1) := SendCmd(miso, b0, CMD_GO_IDLE, 0, CRC_GO_IDLE);
    SendCmdKeepsConsistent(miso, b0, CMD_GO_IDLE, 0, CRC_GO_IDLE);
    if r0 != 0x01 { return; }
    var (r8, b2) := SendCmd(miso, b1, CMD_SEND_IF_COND, IF_COND_ARG, CRC_SEND_IF_COND);
    SendCmdKeepsConsistent(miso, b1, CMD_SEND_IF_COND, IF_COND_ARG, CRC_SEND_IF_COND);
    if r8 != 0x01 { return; }
    ActivateKeepsConsistent(miso, b2);
  }

  // ----- Single-block read -----

  /** The start-block token of a single-block read. */
  predicate IsStartToken(x: byte)
  {
    x == START_TOKEN
  }

  /** The token wait of `sd_read_sector`, with `left` polls remaining:
      whether the start-block token arrived. */
  function PollToken(miso: Stream, bus: Bus, left: nat): (res: (bool, Bus))
    requires 1 <= left
    ensures bus.pos < res.1.pos <= bus.pos + left
    ensures res.1.log == bus.log
    decreases left
  {
    var (token, b) := Transfer(miso, bus, FILLER);
    if IsStartToken(token) then (true, b)
    else if left == 1 then (false, b)
    else PollToken(miso, b, left - 1)
  }

  /** The token wait clocks out only filler bytes and stops at the first
      start-block token; it reports success exactly when it saw one, which
      is the last byte it read, and gives up only after `left` bytes. */
  lemma {:induction false} PollTokenPolls(miso: Stream, bus: Bus, left: nat)
    requires 1 <= left
    ensures var (found, b) := PollToken(miso, bus, left);
      && b.wire == Pad(bus.wire, b.pos - bus.pos)
      && Polled(miso, bus.pos, b.pos, left, IsStartToken)
      && (found <==> IsStartToken(miso(b.pos - 1)))
    decreases left
  {
    var (token, b) := Transfer(miso, bus, FILLER);
    if !IsStartToken(token) && left > 1 {
      PollTokenPolls(miso, b, left - 1);
      PadFront(bus.wire, PollToken(miso, b, left - 1).1.pos - b.pos);
    }
  }

  /** The token is found exactly when one of the next `left` bytes is the
      start-block token. */
  lemma PollTokenFinds(miso: Stream, bus: Bus, left: nat)
    requires 1 <= left
    ensures PollToken(miso, bus, left).0
        <==> exists j :: bus.pos <= j < bus.pos + left && IsStartToken(miso(j))
  {
    var (found, b) := PollToken(miso, bus, left);
    PollTokenPolls(miso, bus, left);
    if found {
      assert IsStartToken(miso(b.pos - 1));
    } else {
      forall j | bus.pos <= j < bus.pos + left
        ensures !IsStartToken(miso(j))
      {
        if j < b.pos - 1 {
        } else {
          assert j == b.pos - 1;
        }
      }
    }
  }

  /** The token wait loop of `sd_read_sector` as written: a 16-bit counter
      from 0xFFFF decremented after every byte that is not the token, and a
      failure when it reaches zero. */
  method WaitToken(miso: Stream, bus: Bus) returns (found: bool, b: Bus)
    ensures (found, b) == PollToken(miso, bus, TOKEN_POLLS)
  {
    var t := 0xFFFF;
    b := bus;
    while true
      invariant 1 <= t <= TOKEN_POLLS
      invariant PollToken(miso, b, t) == PollToken(miso, bus, TOKEN_POLLS)
      decreases t
    {
      var x := Transfer(miso, b, FILLER);
      b := x.1;
      if x.0 == 0xFE {
        break;
      }
      t := t - 1;
      if t == 0 {
        break;
      }
    }
    found := t != 0;
  }

  /** The outcome of `sd_read_sector`: the status returned, the caller's
      buffer afterwards, and the bus. */
  datatype ReadResult = ReadResult(status: byte, buffer: Sector, bus: Bus)

  /** The data phase of `sd_read_sector`, once CMD17 has been accepted:
      wait for the start-block token, read the 512 data bytes into the
      buffer and drop the 2 checksum bytes, then release the card. A missing
      token releases the card and returns 0 with the buffer untouched. */
  function ReadData(miso: Stream, bus: Bus, buffer: Sector): (res: ReadResult)
    ensures res.status == 0 || res.status == 1
    ensures res.status == 0 ==> res.buffer == buffer
  {
    var (found, b2) := PollToken(miso, bus, TOKEN_POLLS);
    if !found then ReadResult(0, buffer, Release(miso, b2))
    else
      var (data, b3) := Receive(miso, b2, SECTOR_SIZE);
      ReadResult(1, data, Release(miso, SendDummy(b3, 2)))
  }

  /** `sd_read_sector`: select the card, send CMD17 for the block, then the
      data phase. A refused command releases the card and returns 0 with
      the buffer untouched. */
  function ReadSector(miso: Stream, bus: Bus, sector: u32, buffer: Sector): (res: ReadResult)
    ensures res.status == 0 || res.status == 1
    ensures res.status == 0 ==> res.buffer == buffer
  {
    var (r1, b1) := SendCmd(miso, ChipSelect(bus), CMD_READ_SINGLE, sector, CRC_UNCHECKED);
    if r1 != 0x00 then ReadResult(0, buffer, Release(miso, b1))
    else ReadData(miso, b1, buffer)
  }

  /** The card's data block as a read sees it: the start-block token at
      position `t` is the first one from `from` on, within the 65535-byte
      budget, and the block is the 512 bytes that follow it. */
  predicate BlockAt(miso: Stream, from: nat, t: nat, data: Sector)
  {
    && from <= t < from + TOKEN_POLLS
    && IsStartToken(miso(t))
    && (forall j :: from <= j < t ==> !IsStartToken(miso(j)))
    && (forall i :: 0 <= i < SECTOR_SIZE ==> data[i] == miso(t + 1 + i))
  }

  /** The data phase issues no command; it returns 1 exactly when the card
      sent the start-block token within 65535 bytes, and then the buffer
      holds the 512 bytes that followed the first token. */
  lemma ReadDataOutcome(miso: Stream, bus: Bus, buffer: Sector)
    ensures var res := ReadData(miso, bus, buffer);
      && res.bus.log == bus.log
      && (res.status == 1 <==> exists j :: bus.pos <= j < bus.pos + TOKEN_POLLS && IsStartToken(miso(j)))
      && (res.status == 1 ==> exists t :: BlockAt(miso, bus.pos, t, res.buffer))
  {
    var res := ReadData(miso, bus, buffer);
    PollTokenFinds(miso, bus, TOKEN_POLLS);
    var (found, b2) := PollToken(miso, bus, TOKEN_POLLS);
    if found {
      PollTokenPolls(miso, bus, TOKEN_POLLS);
      assert BlockAt(miso, bus.pos, b2.pos - 1, res.buffer);
    }
  }

  /** The exchanges of the data phase. On success: the polls up to and
      including the first token, the 512 data bytes, the 2 checksum bytes,
      then chip select high and one filler byte. On a timeout: all 65535
      polls, then the same release. Only filler bytes are sent. */
  lemma ReadDataExchanges(miso: Stream, bus: Bus, buffer: Sector)
    ensures var res := ReadData(miso, bus, buffer);
      && (res.status == 1 ==>
            exists t: nat ::
              && BlockAt(miso, bus.pos, t, res.buffer)
              && res.bus.pos == t + 1 + SECTOR_SIZE + 2 + 1
              && res.bus.wire == Then(Then(Pad(bus.wire, t + 1 - bus.pos + SECTOR_SIZE + 2), Deselect), Send(FILLER)))
      && (res.status == 0 ==>
            && res.bus.pos == bus.pos + TOKEN_POLLS + 1
            && res.bus.wire == Then(Then(Pad(bus.wire, TOKEN_POLLS), Deselect), Send(FILLER)))
  {
    if ReadData(miso, bus, buffer).status == 1 {
      ReadDataDelivers(miso, bus, buffer);
    } else {
      ReadDataTimesOut(miso, bus, buffer);
    }
  }

  /** The success case of `ReadDataExchanges`. */
  lemma ReadDataDelivers(miso: Stream, bus: Bus, buffer: Sector)
    requires ReadData(miso, bus, buffer).status == 1
    ensures var res := ReadData(miso, bus, buffer);
      exists t: nat ::
        && BlockAt(miso, bus.pos, t, res.buffer)
        && res.bus.pos == t + 1 + SECTOR_SIZE + 2 + 1
        && res.bus.wire == Then(Then(Pad(bus.wire, t + 1 - bus.pos + SECTOR_SIZE + 2), Deselect), Send(FILLER))
  {
    var (found, b2) := PollToken(miso, bus, TOKEN_POLLS);
    PollTokenPolls(miso, bus, TOKEN_POLLS);
    var n := b2.pos - bus.pos;
    var (data, b3) := Receive(miso, b2, SECTOR_SIZE);
    var res := ReadResult(1, data, Release(miso, SendDummy(b3, 2)));
    assert ReadData(miso, bus, buffer) == res;
    PadPad(bus.wire, n, SECTOR_SIZE);
    PadPad(bus.wire, n + SECTOR_SIZE, 2);
    var t: nat := b2.pos - 1;
    BlockAfterToken(miso, bus.pos, t, data);
    assert res.bus.wire == Then(Then(Pad(bus.wire, t + 1 - bus.pos + SECTOR_SIZE + 2), Deselect), Send(FILLER));
  }

  /** A token wait that stopped on a start token at `t`, followed by the
      512 bytes after it, is a delivered block. */
  lemma BlockAfterToken(miso: Stream, from: nat, t: nat, data: Sector)
    requires Polled(miso, from, t + 1, TOKEN_POLLS, IsStartToken) && IsStartToken(miso(t))
    requires forall i :: 0 <= i < SECTOR_SIZE ==> data[i] == miso(t + 1 + i)
    ensures BlockAt(miso, from, t, data)
  {
  }

  /** The timeout case of `ReadDataExchanges`. */
  lemma ReadDataTimesOut(miso: Stream, bus: Bus, buffer: Sector)
    requires ReadData(miso, bus, buffer).status == 0
    ensures var res := ReadData(miso, bus, buffer);
      && res.bus.pos == bus.pos + TOKEN_POLLS + 1
      && res.bus.wire == Then(Then(Pad(bus.wire, TOKEN_POLLS), Deselect), Send(FILLER))
  {
    var (found, b2) := PollToken(miso, bus, TOKEN_POLLS);
    PollTokenPolls(miso, bus, TOKEN_POLLS);
    assert ReadData(miso, bus, buffer) == ReadResult(0, buffer, Release(miso, b2));
  }

  /** `sd_read_sector` logs exactly one CMD17 for the requested block. It
      returns 1 exactly when the card answered 0x00 and then sent the
      start-block token within 65535 bytes, and then the buffer holds the
      512 bytes that followed the first token. */
  lemma ReadSectorOutcome(miso: Stream, bus: Bus, sector: u32, buffer: Sector)
    ensures var res := ReadSector(miso, bus, sector, buffer);
      var (r1, b1) := SendCmd(miso, ChipSelect(bus), CMD_READ_SINGLE, sector, CRC_UNCHECKED);
      && res.bus.log == bus.log + [Reply(CMD_READ_SINGLE, sector, CRC_UNCHECKED, r1)]
      && (res.status == 1 <==>
            r1 == 0x00 && exists j :: b1.pos <= j < b1.pos + TOKEN_POLLS && IsStartToken(miso(j)))
      && (res.status == 1 ==> exists t :: BlockAt(miso, b1.pos, t, res.buffer))
  {
    var b1 := SendCmd(miso, ChipSelect(bus), CMD_READ_SINGLE, sector, CRC_UNCHECKED).1;
    ReadDataOutcome(miso, b1, buffer);
  }

  /** The token wait only appends filler bytes to the wire. */
  lemma PollTokenWire(miso: Stream, bus: Bus, left: nat)
    requires 1 <= left
    ensures var b := PollToken(miso, bus, left).1;
      Extends(bus.wire, b.wire) && Selected(b.wire) == Selected(bus.wire)
  {
    var b := PollToken(miso, bus, left).1;
    PollTokenPolls(miso, bus, left);
    PadExtends(bus.wire, b.pos - bus.pos);
  }

  /** Releasing the card after a run of exchanges ends the run with chip
      select high and one filler byte. */
  lemma ReleaseAfter(miso: Stream, from: Trace, bus: Bus)
    requires Extends(from, bus.wire)
    ensures var b := Release(miso, bus);
      && Extends(from, b.wire)
      && !Selected(b.wire)
      && b.wire.Then? && b.wire.last == Send(FILLER)
      && b.wire.before.Then? && b.wire.before.last == Deselect
  {
    var b := Release(miso, bus);
    assert Extends(bus.wire, b.wire.before.before);
    ExtendsTrans(from, bus.wire, b.wire);
  }

  /** The data phase only appends to the wire and always ends with the card
      released. */
  lemma ReadDataWire(miso: Stream, bus: Bus, buffer: Sector)
    ensures var b := ReadData(miso, bus, buffer).bus;
      && Extends(bus.wire, b.wire)
      && !Selected(b.wire)
      && b.wire.Then? && b.wire.last == Send(FILLER)
      && b.wire.before.Then? && b.wire.before.last == Deselect
  {
    var (found, b2) := PollToken(miso, bus, TOKEN_POLLS);
    PollTokenWire(miso, bus, TOKEN_POLLS);
    if !found {
      ReleaseAfter(miso, bus.wire, b2);
      return;
    }
    var b3 := Receive(miso, b2, SECTOR_SIZE).1;
    var b4 := SendDummy(b3, 2);
    PadExtends(b2.wire, SECTOR_SIZE);
    PadExtends(b3.wire, 2);
    ExtendsTrans(b2.wire, b3.wire, b4.wire);
    ExtendsTrans(bus.wire, b2.wire, b4.wire);
    ReleaseAfter(miso, bus.wire, b4);
  }

  /** `sd_read_sector` only appends to the wire and always ends with the
      card released: chip select high followed by one filler byte. When
      the card refuses CMD17, the release follows the R1 poll at once. */
  lemma ReadSectorWire(miso: Stream, bus: Bus, sector: u32, buffer: Sector)
    ensures var b := ReadSector(miso, bus, sector, buffer).bus;
      var r1 := SendCmd(miso, ChipSelect(bus), CMD_READ_SINGLE, sector, CRC_UNCHECKED).0;
      && Extends(bus.wire, b.wire)
      && !Selected(b.wire)
      && b.wire.Then? && b.wire.last == Send(FILLER)
      && b.wire.before.Then? && b.wire.before.last == Deselect
      && (r1 != 0x00 ==> exists w: Trace, q: nat ::
            && CommandEnds(miso, w, q, CMD_READ_SINGLE, sector, CRC_UNCHECKED, r1)
            && b.pos == q + 1
            && b.wire == Then(Then(w, Deselect), Send(FILLER)))
  {
    var b0 := ChipSelect(bus);
    var (r1, b1) := SendCmd(miso, b0, CMD_READ_SINGLE, sector, CRC_UNCHECKED);
    SendCmdExtends(miso, b0, CMD_READ_SINGLE, sector, CRC_UNCHECKED);
    ExtendsTrans(bus.wire, b0.wire, b1.wire);
    if r1 != 0x00 {
      ReleaseAfter(miso, bus.wire, b1);
      SendCmdEnds(miso, b0, CMD_READ_SINGLE, sector, CRC_UNCHECKED);
      assert CommandEnds(miso, b1.wire, b1.pos, CMD_READ_SINGLE, sector, CRC_UNCHECKED, r1);
    } else {
      ReadDataWire(miso, b1, buffer);
      ExtendsTrans(bus.wire, b1.wire, ReadData(miso, b1, buffer).bus.wire);
    }
  }

  /** The data phase keeps the log and the wire in agreement. */
  lemma ReadDataKeepsConsistent(miso: Stream, bus: Bus, buffer: Sector)
    requires Consistent(bus)
    ensures Consistent(ReadData(miso, bus, buffer).bus)
  {
    var (found, b2) := PollToken(miso, bus, TOKEN_POLLS);
    PollTokenPolls(miso, bus, TOKEN_POLLS);
    DummyKeepsConsistent(bus, b2.pos - bus.pos);
    if !found {
      ReleaseKeepsConsistent(miso, b2);
      return;
    }
    var b3 := Receive(miso, b2, SECTOR_SIZE).1;
    DummyKeepsConsistent(b2, SECTOR_SIZE);
    DummyKeepsConsistent(b3, 2);
    ReleaseKeepsConsistent(miso, SendDummy(b3, 2));
  }

  /** `sd_read_sector` keeps the log and the wire in agreement. */
  lemma ReadSectorKeepsConsistent(miso: Stream, bus: Bus, sector: u32, buffer: Sector)
    requires Consistent(bus)
    ensures Consistent(ReadSector(miso, bus, sector, buffer).bus)
  {
    var b0 := ChipSelect(bus);
    var (r1, b1) := SendCmd(miso, b0, CMD_READ_SINGLE, sector, CRC_UNCHECKED);
    SendCmdFramesOneCommand(miso, b0, CMD_READ_SINGLE, sector, CRC_UNCHECKED);
    assert Commands(b0.wire) == Commands(bus.wire) + [];
    assert Commands(bus.wire) + [] == Commands(bus.wire);
    assert LogTokens(b1.log) == LogTokens(bus.log) + [SetBit6(CMD_READ_SINGLE)];
    if r1 != 0x00 {
      ReleaseKeepsConsistent(miso, b1);
    } else {
      ReadDataKeepsConsistent(miso, b1, buffer);
    }
  }

  /** The data loop of `sd_read_sector` as written: one exchange per
      buffer byte, storing what comes back. */
  method ReceiveLoop(miso: Stream, bus: Bus) returns (data: seq<byte>, b: Bus)
    ensures (data, b) == Receive(miso, bus, SECTOR_SIZE)
  {
    data := [];
    b := bus;
    var i := 0;
    while i < SECTOR_SIZE
      invariant 0 <= i <= SECTOR_SIZE
      invariant |data| == i
      invariant forall k :: 0 <= k < i ==> data[k] == miso(bus.pos + k)
      invariant b == Bus(bus.pos + i, Pad(bus.wire, i), bus.log)
    {
      var x := Transfer(miso, b, FILLER);
      data := data + [x.0];
      b := x.1;
      i := i + 1;
    }
    assert data == Receive(miso, bus, SECTOR_SIZE).0;
  }
}

=== FILE: seqs.dfy ===
/** Facts about slicing and concatenating sequences, shared by the command
    log of the SD layer and the directory listing. */
module Seqs {

  /** Appending is associative, and the empty sequence is its unit. */
  lemma AppendAssoc<T>(a: seq<T>, b: seq<T>, c: seq<T>)
    ensures (a + b) + c == a + (b + c)
    ensures [] + a == a && a + [] == a
  {
  }

  /** Dropping a prefix of a concatenation leaves the rest. */
  lemma DropConcat<T>(a: seq<T>, p: seq<T>)
    ensures (a + p)[|a|..] == p
  {
  }

  /** Appending one element to a sequence that extends `p` appends it to
      what follows `p`. */
  lemma DropSnoc<T>(p: seq<T>, a: seq<T>, x: T)
    requires p <= a
    ensures var rs := (a + [x])[|p|..];
      && p <= a + [x]
      && |rs| == |a| - |p| + 1
      && rs[..|rs| - 1] == a[|p|..]
      && rs[|rs| - 1] == x
  {
    var rs := (a + [x])[|p|..];
    assert rs[..|rs| - 1] == a[|p|..];
  }

  /** What follows `p` in a sequence that extends `p + a` starts with `a`. */
  lemma DropSplit<T>(p: seq<T>, a: seq<T>, full: seq<T>)
    requires p + a <= full
    ensures var rs := full[|p|..];
      && p <= full
      && |a| <= |rs|
      && rs[..|a|] == a
      && rs[|a|..] == full[|p| + |a|..]
  {
    var rs := full[|p|..];
    assert rs[..|a|] == a;
    assert rs[|a|..] == full[|p| + |a|..];
  }
}

=== FILE: spi.dfy ===
/** The byte transport under the SD driver (main.c `spi_transfer`,
    `spi_send_dummy` and the chip-select macros), seen from outside the
    hardware: every exchange sends one byte on MOSI and receives the next
    byte of the card's MISO stream. */
module Spi {
  import opened Bytes

  /** What the card drives on MISO during the n-th exchange since power-up. */
  type Stream = nat -> byte

  /** What the controller does on the wire: chip select low, chip select
      high, or one exchange in which `out` is sent on MOSI. */
  datatype Event = Select | Deselect | Send(out: byte)

  /** Everything put on the wire so far, most recent event last. */
  datatype Trace = Start | Then(before: Trace, last: Event)

  /** One SD command issued by the protocol layer: its index, argument and
      checksum byte, with the R1 response. */
  datatype Reply = Reply(cmd: byte, arg: u32, crc: byte, r1: byte)

  /** The controller's view of the link: how many exchanges have happened
      (so the next received byte is `miso(pos)`), everything put on the
      wire so far, and the log of commands issued by the protocol layer. */
  datatype Bus = Bus(pos: nat, wire: Trace, log: seq<Reply>)

  /** The idle byte clocked out when only the card's reply matters. */
  const FILLER: byte := 0xFF

  // ----- Wire traces -----

  /** `t` followed by sending the bytes of `out` in order. */
  function Clock(t: Trace, out: seq<byte>): (r: Trace)
    decreases |out|
  {
    if out == [] then t else Then(Clock(t, out[..|out| - 1]), Send(out[|out| - 1]))
  }

  /** `t` followed by `n` filler exchanges. */
  function Pad(t: Trace, n: nat): (r: Trace)
  {
    if n == 0 then t else Then(Pad(t, n - 1), Send(FILLER))
  }

  /** `u` is `t` followed by zero or more further events. */
  predicate Extends(t: Trace, u: Trace)
  {
    t == u || (u.Then? && Extends(t, u.before))
  }

  /** Whether the last chip-select event was a select: the card is driven
      low, and left so, from then on. */
  predicate Selected(t: Trace)
  {
    match t
    case Start => false
    case Then(before, e) => if e.Send? then Selected(before) else e == Select
  }

  /** One filler exchange and then `n` more is `n + 1` filler exchanges. */
  lemma {:induction false} PadFront(t: Trace, n: nat)
    ensures Pad(Then(t, Send(FILLER)), n) == Pad(t, n + 1)
  {
    if n > 0 {
      PadFront(t, n - 1);
    }
  }

  /** `a` filler exchanges and then `b` more are `a + b` of them. */
  lemma {:induction false} PadPad(t: Trace, a: nat, b: nat)
    ensures Pad(Pad(t, a), b) == Pad(t, a + b)
  {
    if b > 0 {
      PadPad(t, a, b - 1);
    }
  }

  /** Sending one byte and then `rest` is sending `[x] + rest`. */
  lemma {:induction false} ClockFront(t: Trace, x: byte, rest: seq<byte>)
    ensures Clock(Then(t, Send(x)), rest) == Clock(t, [x] + rest)
    decreases |rest|
  {
    var out := [x] + rest;
    if rest != [] {
      ClockFront(t, x, rest[..|rest| - 1]);
      assert out[..|out| - 1] == [x] + rest[..|rest| - 1];
      assert out[|out| - 1] == rest[|rest| - 1];
    } else {
      assert out[..|out| - 1] == [];
    }
  }

  /** A trace extends its own past. */
  lemma {:induction false} ExtendsTrans(a: Trace, b: Trace, c: Trace)
    requires Extends(a, b) && Extends(b, c)
    ensures Extends(a, c)
  {
    if b != c {
      ExtendsTrans(a, b, c.before);
    }
  }

  lemma {:induction false} ClockExtends(t: Trace, out: seq<byte>)
    ensures Extends(t, Clock(t, out))
    ensures Selected(Clock(t, out)) == Selected(t)
    decreases |out|
  {
    if out != [] {
      ClockExtends(t, out[..|out| - 1]);
    }
  }

  lemma {:induction false} PadExtends(t: Trace, n: nat)
    ensures Extends(t, Pad(t, n))
    ensures Selected(Pad(t, n)) == Selected(t)
  {
    if n > 0 {
      PadExtends(t, n - 1);
    }
  }

  // ----- Exchanges -----

  /** `spi_transfer`: send `out`, return the byte received in the same exchange. */
  function Transfer(miso: Stream, bus: Bus, out: byte): (res: (byte, Bus))
  {
    (miso(bus.pos), Bus(bus.pos + 1, Then(bus.wire, Send(out)), bus.log))
  }

  /** A run of `spi_transfer` calls, one per byte of `out`, collecting the
      replies: the operational reading of a straight-line sequence of
      transfers in the source. */
  function Transfers(miso: Stream, bus: Bus, out: seq<byte>): (res: (seq<byte>, Bus))
    decreases |out|
  {
    if out == [] then ([], bus)
    else
      var (x, b1) := Transfer(miso, bus, out[0]);
      var (rest, b2) := Transfers(miso, b1, out[1..]);
      ([x] + rest, b2)
  }

  /** The bus after `|out|` consecutive exchanges sending `out`. */
  function Emit(bus: Bus, out: seq<byte>): (r: Bus)
  {
    Bus(bus.pos + |out|, Clock(bus.wire, out), bus.log)
  }

  /** The effect of `|out|` consecutive exchanges in closed form: the
      replies are the next `|out|` bytes of the card's stream. */
  function Exchange(miso: Stream, bus: Bus, out: seq<byte>): (res: (seq<byte>, Bus))
  {
    (seq(|out|, (i: nat) => miso(bus.pos + i)), Emit(bus, out))
  }

  /** Exchanging bytes one at a time, as the source does, has exactly the
      closed-form effect: each reply is the stream byte at its position,
      and the bytes go on the wire in order. */
  lemma {:induction false} TransfersAreExchange(miso: Stream, bus: Bus, out: seq<byte>)
    ensures Transfers(miso, bus, out) == Exchange(miso, bus, out)
    decreases |out|
  {
    if out != [] {
      var b1 := Transfer(miso, bus, out[0]).1;
      TransfersAreExchange(miso, b1, out[1..]);
      ClockFront(bus.wire, out[0], out[1..]);
      assert [out[0]] + out[1..] == out;
      var ex := Exchange(miso, bus, out);
      var rest := Exchange(miso, b1, out[1..]);
      assert rest.1 == ex.1;
      assert |ex.0| == |out| && |rest.0| == |out| - 1;
      forall i | 0 <= i < |out|
        ensures ([miso(bus.pos)] + rest.0)[i] == ex.0[i]
      {
        if i > 0 {
          assert rest.0[i - 1] == miso(b1.pos + (i - 1));
        }
      }
      assert [miso(bus.pos)] + rest.0 == ex.0;
      var tr := Transfers(miso, bus, out);
      assert tr == ([miso(bus.pos)] + Transfers(miso, b1, out[1..]).0, Transfers(miso, b1, out[1..]).1);
      assert tr.0 == ex.0 && tr.1 == ex.1;
    } else {
      assert |Exchange(miso, bus, out).0| == 0;
    }
  }

  /** `SD_CS_LOW()`. */
  function ChipSelect(bus: Bus): (r: Bus)
  {
    bus.(wire := Then(bus.wire, Select))
  }

  /** `SD_CS_HIGH()`. */
  function ChipDeselect(bus: Bus): (r: Bus)
  {
    bus.(wire := Then(bus.wire, Deselect))
  }

  /** `SD_CS_HIGH()` followed by one filler exchange, the release sequence
      used at the end of every finished or abandoned read. */
  function Release(miso: Stream, bus: Bus): (b: Bus)
    ensures b == Bus(bus.pos + 1, Then(Then(bus.wire, Deselect), Send(FILLER)), bus.log)
    ensures !Selected(b.wire)
  {
    Transfer(miso, ChipDeselect(bus), FILLER).1
  }

  /** `n` filler exchanges keeping what comes back: the i-th byte received
      is the card's byte at position `pos + i`. */
  function Receive(miso: Stream, bus: Bus, n: nat): (res: (seq<byte>, Bus))
    ensures |res.0| == n
    ensures forall i :: 0 <= i < n ==> res.0[i] == miso(bus.pos + i)
    ensures res.1 == Bus(bus.pos + n, Pad(bus.wire, n), bus.log)
  {
    (seq(n, (i: nat) => miso(bus.pos + i)), Bus(bus.pos + n, Pad(bus.wire, n), bus.log))
  }

  /** `spi_send_dummy(n)` and the runs of discarded `spi_transfer(0xFF)`
      calls: `n` filler exchanges whose replies are dropped. */
  function SendDummy(bus: Bus, n: nat): (b: Bus)
  {
    bus.(pos := bus.pos + n, wire := Pad(bus.wire, n))
  }

  /** Filler exchanges one at a time, as `spi_send_dummy` loops, are the
      closed-form `n` exchanges. */
  lemma {:induction false} SendDummyIsTransfers(miso: Stream, bus: Bus, n: nat)
    ensures Transfers(miso, bus, seq(n, _ => FILLER)).1 == SendDummy(bus, n)
  {
    var out: seq<byte> := seq(n, _ => FILLER);
    TransfersAreExchange(miso, bus, out);
    PadIsClock(bus.wire, n);
  }

  /** Padding is clocking out filler bytes. */
  lemma {:induction false} PadIsClock(t: Trace, n: nat)
    ensures Pad(t, n) == Clock(t, seq(n, _ => FILLER))
  {
    var out: seq<byte> := seq(n, _ => FILLER);
    if n > 0 {
      PadIsClock(t, n - 1);
      assert out[..n - 1] == seq(n - 1, _ => FILLER);
    }
  }
}
